=== FILE: README.md ===
# Cambridge SU event scraper — a Dafny model of its core

The scraper reads the Cambridge Students' Union "what's on" listing. It visits each
event's detail page and turns the page into a calendar event. This project models the
part of `main.py` where the output can go wrong:

- **The date/time normaliser** `_parse_event_datetime` (`datetime_parse.dfy`).
  - It reads a date text such as "Monday 03 June 2024" with `strptime("%A %d %B %Y")`.
  - It removes the spaces from a time range such as "7pm - 11:30pm" and splits it at the
    hyphen.
  - It rewrites a piece equal to "noon" (any case) to "12pm", then reads each piece with
    `%I%p` or `%I:%M%p`.
  - It localises both times to Europe/London.
  - When the end is not after the start, it moves the end one day on.
  - It formats both stamps as `YYYY-MM-DD HH:MM:SS+HHMM`.
- **The calendar and the Europe/London offset** it relies on (`calendar.dfy`): Python's
  proleptic Gregorian dates, `toordinal`, `weekday`, the day after a date, and the offset
  `pytz` gives a local time with `is_dst=False`.
- **The row classifier and the record loop of `_get_event_details`** (`event_details.dfy`).
  - A row is decided by the first icon it carries: calendar, clock, map-marker, sitemap,
    then e-details-txt.
  - It writes its stripped text to the matching field of the record.
  - A clock row runs the normaliser at once, with the date read so far. When the
    normaliser raises, the whole event fails.
  - The loop is the method `GetEventDetails`. It is proved equal to the function
    `ItemEvent`. The row-by-row properties are proved for any normaliser.
- **The batch loop of `scrape_current_events` and `get_events`** (`scraper.dfy`).
  - The class `SUEventScraper` processes the items of the last "msl_eventlist" container
    in order and skips each item that raises.
  - The kept events replace `eventsList` only when the loop ends.
- **The intended rollover** (`rollover_finding.dfy`). It sets the corrected definition
  beside the code as written; see Findings.

Conventions:

- Times are minutes after local midnight.
- Offsets are minutes east of UTC.
- An instant is the date's ordinal in minutes, plus the local time, minus the offset.
- `None` stands for an exception the source raises and the batch loop catches.
- `tz.localize` raises `OverflowError` on 0001-01-01 and 9999-12-31, because `pytz`
  looks up the datetime one day before and one day after; the normaliser fails on those
  dates (`Localizable`).

Where the code and the intended behaviour of the scraper disagree, the model follows the
code:

- "12noon" is not the noon alias, and `%I%p` cannot read it, so "12noon - 2pm" fails the
  event (`TwelveNoonIsRejected`).
- A bare hour such as "7", without am or pm, also fails (`BareHourIsRejected`).
- The rollover adds one day to the end while keeping the offset the end was first
  localised with. It does not re-localise the end on the next day. This is the finding
  below.
- A page without a clock row still yields an event, with no begin and no end
  (`ItemWithoutClockRow`).
- A listing without an "msl_eventlist" container raises instead of giving an empty list
  (`ScrapeCurrentEvents` returns `false`).

## Model

| member | source | states |
|---|---|---|
| Text.Strip | main.py:88 | `str.strip()`: the result is the input with exactly its leading and trailing whitespace removed, and neither end of the result is whitespace |
| Text.StripIdempotent | main.py:88 | stripping an already stripped text changes nothing |
| Text.RemoveSpaces | main.py:126 | `replace(' ', '')`: no space is left, the text gets shorter by exactly its number of spaces, every other character occurs exactly as often as before, and a text without spaces is unchanged |
| Text.RemoveSpacesAppend | main.py:126 | removing spaces distributes over concatenation |
| Text.SplitCount | main.py:126 | `split("-")` gives one more piece than there are hyphens |
| Text.SplitPartsFree | main.py:126 | no piece of `split(sep)` contains `sep` |
| Text.JoinSplit | main.py:126 | joining the pieces of a split with the separator gives back the text |
| Text.SplitJoin | main.py:126 | splitting a join of separator-free pieces gives back the pieces |
| Text.Pad | main.py:147-148 | zero-padding to width `w` gives `w` digits whose value is the number |
| Text.WordsOfJoin | main.py:123 | words joined by single spaces are read back as those words, as the `\s+` of the date format separates them |
| Text.EqualsIgnoreCaseUnique | main.py:123 | a text matches at most one lower-case name, ignoring case |
| Calendar.DaysInMonth | main.py:123 | a month has 28 to 31 days, and February has 29 exactly in leap years |
| Calendar.NextDay | main.py:144 | `+ timedelta(days=1)` fails exactly on 9999-12-31 and otherwise gives a valid date |
| Calendar.YearLength | main.py:144 | a year has 366 days when it is a leap year and 365 otherwise |
| Calendar.NextDayOrdinal | main.py:144 | the day after a date is the next ordinal |
| Calendar.LastSunday | main.py:139-140 | the last Sunday of March or October is a valid Sunday within the last seven days of the month |
| Calendar.UkOffset | main.py:139-140 | `tz.localize` for Europe/London: the offset is 0 (GMT) or 60 (BST) |
| Calendar.OffsetOnChangeDays | main.py:139-140 | on the spring change day the offset is GMT before 02:00, the skipped hour 01:00-01:59 included, and BST from then on; on the autumn change day it is BST before 01:00 and GMT from then on, the repeated hour included |
| Calendar.OffsetBySeason | main.py:139-140 | April to September is on BST, and November to February on GMT |
| Calendar.OffsetConstantOnOrdinaryDay | main.py:139-140 | every time of a day that is not a change day has the same offset |
| Calendar.OffsetAcrossMidnight | main.py:139-140 | a time from 02:00 on one day and a time before 01:00 on the next share their offset |
| Calendar.OffsetAcrossOrdinaryDays | main.py:139-140 | two consecutive days, neither a change day, share their offset |
| DateTimeParse.NameIndex | main.py:123 | the first name the word spells, ignoring case, or none when it spells none |
| DateTimeParse.ParseDate | main.py:123 | a parsed date is a valid date, and the text has no whitespace at its ends |
| DateTimeParse.DateOfWords | main.py:123 | a date is read only from exactly four fields: a weekday name, one or two day digits, a month name, four year digits; the month and the year are the ones those fields name |
| DateTimeParse.NamesAreDistinctWords | main.py:123 | the weekday and month names are distinct, non-empty lower-case words |
| DateTimeParse.CapitalisedNameIndex | main.py:123 | a capitalised name, as the site prints it, is found at its own place |
| DateTimeParse.ParseDateText | main.py:123 | every valid date written as the site writes it ("Monday 03 June 2024"), whatever the weekday name, reads back as that date |
| DateTimeParse.ParseJoinedDate | main.py:123 | four well-formed fields joined by spaces read as the date they name |
| DateTimeParse.NoonAlias | main.py:128-131 | a piece equal to "noon" in any case becomes "12pm", and any other piece is unchanged |
| DateTimeParse.NoonIsMidday | main.py:128-133 | "noon" in any case parses exactly as "12pm" does, to 12:00 |
| DateTimeParse.TwelveNoonIsRejected | main.py:128-134 | "12noon" is left alone by the alias, and the clock parse rejects it |
| DateTimeParse.To24 | main.py:133-136 | the 12-hour clock hour with am/pm gives an hour from 0 to 23 that agrees modulo 12 and is at least 12 exactly for pm |
| DateTimeParse.ReadNumber | main.py:133-136 | `%I` and `%M`: a value is read only within its bounds |
| DateTimeParse.ReadNumberReads | main.py:133-136 | a number read is the value of the one or two (ASCII) digits the text starts with, no digit follows them, and the rest is the text after them |
| DateTimeParse.ClockWithoutMinutes | main.py:133 | `%I%p` gives a whole hour of the day |
| DateTimeParse.ClockWithMinutes | main.py:134 | `%I:%M%p` gives a minute of the day |
| DateTimeParse.ParseClock | main.py:133-136 | the format chosen by the presence of ':' gives a minute of the day, and a whole hour when there is no ':' |
| DateTimeParse.ReadNumberOf | main.py:133-136 | one or two digits within bounds, followed by a non-digit, are read as their value and leave the rest |
| DateTimeParse.HourFormDecides | main.py:133 | `%I%p` reads a text as a time exactly when it is one or two digits worth 1 to 12 followed by "am" or "pm" in any case and nothing else, and the time is that hour of the 24-hour clock |
| DateTimeParse.MinuteFormDecides | main.py:134 | `%I:%M%p` reads a text as a time exactly when it is one or two hour digits worth 1 to 12, a colon, one or two minute digits worth 0 to 59, and "am" or "pm" in any case, and the time is that minute of the day |
| DateTimeParse.MinuteFormOfClock | main.py:134 | every text `%I:%M%p` reads has that form and stands for the time read |
| DateTimeParse.ClockOfMinuteForm | main.py:134 | every text of that form is read as the time it stands for |
| DateTimeParse.ParseClockDecides | main.py:133-136 | the clock parse reads a piece as a time exactly when the piece, after its leading whitespace, has the `%I:%M%p` form (a piece with ':') or the `%I%p` form (otherwise) and stands for that time |
| DateTimeParse.ParseHourAndMeridiem | main.py:133 | an hour of one or two digits followed by am or pm reads as that hour of the 24-hour clock |
| DateTimeParse.ParseHourMinuteAndMeridiem | main.py:134 | an hour, a colon, two minute digits and am or pm read as that minute of the day |
| DateTimeParse.ParseHourText | main.py:133 | every whole hour written "7pm" or "12am" reads back as itself |
| DateTimeParse.ParseMinuteText | main.py:134 | every minute of the day written "7:30pm" or "12:05am" reads back as itself |
| DateTimeParse.BareHourIsRejected | main.py:133 | an hour without am or pm is rejected |
| DateTimeParse.TwelveAm | main.py:133 | "12am" is midnight |
| DateTimeParse.TwelvePm | main.py:133 | "12pm" is midday |
| DateTimeParse.Localize | main.py:139-140 | on any date but the first and the last, a localised stamp keeps the date and the time and takes the Europe/London offset of that date and time, and is well formed |
| DateTimeParse.Rollover | main.py:143-144 | the end is kept when it is after the start; otherwise it moves to the next date with the same time and the same offset, exactly 24 hours later, and fails past 9999-12-31 |
| DateTimeParse.SpanAsWritten | main.py:139-144 | the start is the start time localised on the date; the end keeps the offset of the end time on that date, and is the end time localised there when that is after the start, and otherwise the same time on the next date, 24 hours later |
| DateTimeParse.SameOffsetDuration | main.py:143-144 | when both times share an offset, the end is strictly after the start and at most 24 hours later: `b - a` minutes when `b > a`, and `b - a` plus a day otherwise |
| DateTimeParse.OrdinaryDayDuration | main.py:143-144 | on a date that is not a change day an event lasts `b - a` minutes when `b > a`, and `b - a` plus a day otherwise, so equal times last 24 hours |
| DateTimeParse.EventSpan | main.py:119-144 | a span exists only for a date that parses to a date `tz.localize` handles and a time of exactly two pieces that both parse; it is then the as-written span of that date and the two pieces' times, with both stamps well formed |
| DateTimeParse.HyphenCountDecides | main.py:126 | a time text without exactly one hyphen, once spaces are gone, fails the whole parse |
| DateTimeParse.EventSpanOfParts | main.py:119-144 | a date and two pieces that parse give the as-written span of their values, or fail when the date is the first or the last one |
| DateTimeParse.EventSpanFails | main.py:119-144 | the span fails exactly when there is no date, the date does not parse or is the first or the last one, the time has not exactly two pieces, or a piece does not parse |
| DateTimeParse.RangeParts | main.py:126 | "s - e", with no space or hyphen in either, splits into `s` and `e` |
| DateTimeParse.RangeWithoutSpaces | main.py:126 | removing the spaces of "s - e" leaves `s`, a hyphen, and `e` |
| DateTimeParse.DigitFirstIsNotNoon | main.py:128-131 | a piece starting with a digit is never rewritten by the alias |
| DateTimeParse.ClockRangeOfTexts | main.py:126-136 | a range of two clock texts splits into two pieces that read as their times |
| DateTimeParse.EventSpanOfTexts | main.py:119-144 | a date text and a range "s - e" of clock texts give the as-written span of the date and the two times, or fail when the date is the first or the last one |
| DateTimeParse.HourTextShape | main.py:126 | a whole-hour text starts with a digit and holds no space or hyphen |
| DateTimeParse.MinuteTextShape | main.py:126 | a text with minutes starts with a digit and holds no space or hyphen |
| DateTimeParse.DateField | main.py:147-148 | `%Y-%m-%d`: ten characters whose digit groups are the year, the month and the day |
| DateTimeParse.ClockField | main.py:147-148 | `%H:%M:%S`: eight characters whose hours and minutes make up the minute of the day, and zero seconds |
| DateTimeParse.ZoneField | main.py:147-148 | `%z`: the sign of the offset, then hours and minutes that make up its size |
| DateTimeParse.FormatStampFields | main.py:147-148 | a formatted stamp is 24 characters: the date field, a space, the clock field, then the zone field |
| DateTimeParse.ParseEventDateTime | main.py:119-149 | both strings returned are 24 characters long |
| DateTimeParse.ParseEventDateTimeOfParts | main.py:119-149 | on a date and two pieces that parse, the normaliser returns the formatted start and end of the as-written span, and raises when the date is the first or the last one |
| DateTimeParse.ParseEventDateTimeFails | main.py:119-149 | the normaliser raises exactly when there is no date, the date does not parse or is the first or the last one, the time has not exactly two pieces, or a piece does not parse |
| DateTimeParse.ParseEventDateTimeOfTexts | main.py:119-149 | on a date text and a range "s - e" of clock texts, the normaliser returns the formatted start and end of the as-written span of the date and the two times, and raises when the date is the first or the last one |
| EventDetails.OnlyFiveMarkers | main.py:86-103 | a row with none of the five markers carries none at all |
| EventDetails.Classify | main.py:86-103 | a row is decided by the earliest marker of the chain it carries, and by none exactly when it carries none |
| EventDetails.Put | main.py:88-103 | writing a row's text sets exactly the field of its marker and leaves the other fields, the id, the title, the start and the end alone |
| EventDetails.Initial | main.py:74-84 | before the loop, the id is the link, the title is the heading and the description is the page description, and date, time, start, end, location and organisation are unset |
| EventDetails.EventOf | main.py:105-112 | the event's name, begin, end, location, organiser and description are the record's title, start, end, location, organisation and description |
| EventDetails.ItemEvent | main.py:60-117 | an item yields an event only when it has a link, a title and a page description |
| EventDetails.ItemEventName | main.py:70-107 | the event an item yields is named by the page heading, whatever rows the page has |
| EventDetails.GetEventDetails | main.py:60-117 | the record loop yields exactly the event `ItemEvent` describes, failure included |
| EventDetails.ReadRow | main.py:86-103 | the loop body does exactly what one step of the scan describes |
| EventDetails.ScanExtend | main.py:86-103 | scanning one more row is one more pass of the loop body |
| EventDetails.ScanFailureSticks | main.py:86-103 | once a pass raises, the event fails whatever rows follow |
| EventDetails.UnmarkedRowChangesNothing | main.py:86-103 | a row without any marker leaves the record as it was |
| EventDetails.StepWritesOneField | main.py:86-103 | a pass writes the row's stripped text to the field of its marker, changes no other field, and sets the start and the end only on a clock row |
| EventDetails.ScanKeepsIdAndTitle | main.py:86-103 | no pass of the loop changes the id or the title, so they leave the loop as they entered it |
| EventDetails.LastOfKind | main.py:86-103 | the index of the last row of a kind, with no later row of that kind; none only when no row is of that kind |
| EventDetails.LastOfKindExtend | main.py:86-103 | one more row is the last of its own kind and keeps the last row of every other kind |
| EventDetails.FieldAfterStep | main.py:86-103 | after a pass, a field holds the row's text when the row is of its kind, and what it held before otherwise |
| EventDetails.ScanFieldIsLastRow | main.py:86-103 | after the loop each field holds the stripped text of the last row of its kind, or its value from before the loop when there is none |
| EventDetails.TimesAfterStep | main.py:90-94 | a pass sets the start and the end only on a clock row, from that row's parse |
| EventDetails.ScanTimesFromLastClockRow | main.py:90-94 | the start and the end come from the last clock row, parsed with the date read before it; with no clock row they keep their earlier values |
| EventDetails.StepFails | main.py:90-94 | a pass raises exactly on a clock row whose text the normaliser rejects |
| EventDetails.RejectedClockRowFails | main.py:90-94 | a rejected clock row fails the event |
| EventDetails.ScanFailsOnlyAtClockRow | main.py:86-103 | an event fails only at some clock row that the normaliser rejects |
| EventDetails.ClockBeforeCalendarFails | main.py:87-92 | a clock row before any calendar row hands the normaliser no date, and a normaliser that raises on that fails the event |
| EventDetails.ItemClockBeforeCalendarFails | main.py:87-92 | with the scraper's normaliser, an item whose clock row comes before any calendar row yields no event |
| EventDetails.ItemWithoutClockRow | main.py:60-117 | a page without clock rows gives an event with no begin and no end, and a page without an e-details-txt row keeps the page description |
| Scraper.OutcomeOf | main.py:30-39 | the outcome of item `i` is what processing that item gives |
| Scraper.SUEventScraper.constructor | main.py:12-14 | the listing URL is set and the event list is empty |
| Scraper.SUEventScraper.ScrapeCurrentEvents | main.py:16-41 | the batch completes exactly when there is a container and every item of the last one has a link; it then replaces the event list with the kept events, and otherwise leaves the list as it was |
| Scraper.SUEventScraper.GetEvents | main.py:43-44 | returns the current event list |
| Scraper.KeepOutcome | main.py:30-39 | one pass of the batch loop keeps item `i`'s event after the others, when it has one |
| Scraper.KeptExtend | main.py:30-39 | taking one more outcome keeps its event when it has one |
| Scraper.KeptAppend | main.py:30-39 | what two runs of items keep is what each keeps, one after the other: a failing item never affects later ones, and the order is kept |
| Scraper.KeptMembers | main.py:30-39 | an event is kept exactly when some item yields it |
| Scraper.AllSucceed | main.py:30-39 | when every item succeeds, every event is kept, in item order |
| Scraper.AllFail | main.py:30-39 | when every item fails, nothing is kept |
| Scraper.MiddleFailureSkipped | main.py:30-39 | of three items with the middle one failing, the first and the third events are kept, in that order |
| RolloverFinding.IntendedSpan | main.py:139-144 | the corrected span: the start is the localised start time, and the end is the end time localised on the date it falls on, with that date's offset |
| RolloverFinding.IntendedSpanFails | main.py:143-144 | the corrected span fails exactly when the end must be localised on 9999-12-31 |
| RolloverFinding.EndFollowsStart | main.py:143-144 | with the correction, whenever the span exists the end strictly follows the start, by at most 25 hours, on every date including both change days |
| RolloverFinding.AutumnRolloverGoesBackwards | main.py:143-144 | on the day the clocks go back, a range from 23:00 or later to before 01:00 gets an end that is not after its start |
| RolloverFinding.AutumnRollover2024 | main.py:143-144 | "11:30pm - 12:15am" on Sunday 27 October 2024 ends 15 minutes before it starts as written, and 45 minutes after it starts as intended |
| RolloverFinding.AutumnChange2024 | main.py:139-140 | in 2024 the clocks went back on 27 October |
| RolloverFinding.AsWrittenAgreesAwayFromChanges | main.py:143-144 | the code as written and the corrected span agree whenever no rollover is needed, or neither the date nor the next one is a change day (and the next one is not the last date) |

## Left out

- HTTP requests, `urljoin`, and HTML parsing with BeautifulSoup are not modelled.
  - A listing item is modelled as the `href` of its first link plus its detail page.
  - A page is modelled as its title, its page-level description and its "event-details"
    rows. Each row is the set of icon markers it contains and its text.
  - A missing container, heading or description is `None`, because the source raises on
    it.
- `generate_ics_calendar` is not modelled. It creates a directory, uses the clock for the
  file name, and writes the calendar file.
- `ics.Event` is not modelled. An event is a plain record of the six attributes the source
  sets. `ics` parsing of the two stamp strings is not modelled.
- `if e:` is not modelled: every built event counts as true and is kept.
- `print` and `traceback` are not modelled. The handler's report has no effect on the
  result.
- Calendar.UkOffset: applies the present UK rule to every year. It does not model the
  history in the tz database: the differing change dates before 1996, British Standard
  Time, and double summer time. Nor does it model the end of `pytz`'s transition table
  in 2037, after which `pytz` gives GMT all year.
- DateTimeParse.DateField: pads the year to four digits. With glibc, `strftime("%Y")`
  writes a year below 1000 without padding, so for those years the strings differ.
- Text.IsSpace: covers the whitespace of Python's `str.isspace` that `strip()` and `\s`
  share. It does not model locale-dependent behaviour.
- Text.Lower: folds only ASCII letters, which is all the month, weekday and am/pm names
  need.
- Text.IsDigit: accepts only the ASCII digits 0-9. `strptime` compiles its pattern
  without `re.ASCII`, so the `\d` in `%M` (`[0-5]\d|\d`), in the second digit of `%d`
  (`[12]\d`) and in `%Y` (`\d\d\d\d`) also matches any other Unicode decimal digit,
  which `int()` then reads: "Monday 03 June ٢٠٢٤", "Monday 1٥ June 2024" and "7:3٥pm" parse
  in the source and fail in the model. `%I` and the name fields have no `\d` and are
  unaffected.
- DateTimeParse.DateOfWords: the day's second digit and the year's digits must be ASCII,
  while `%d` and `%Y` also read other Unicode decimal digits there (see Text.IsDigit).
- DateTimeParse.ReadNumberOf: "followed by a non-digit" means not an ASCII digit, so for
  `%M` a minute such as "3٥", which the source reads as 35, is read as 3 and then
  rejected by the am/pm check (see Text.IsDigit).
- DateTimeParse.MinuteFormDecides: the form's minute digits are ASCII only; `%M` also
  accepts other Unicode decimal digits, so "7:3٥pm" (19:35 in the source) is outside the
  form and rejected by the model (see Text.IsDigit).
- DateTimeParse.MinuteFormOfClock: holds of the model's `%I:%M%p`; the source's also reads
  non-ASCII minute digits, which the form leaves out (see Text.IsDigit).
- DateTimeParse.ParseClockDecides: the "exactly when" is about the model's clock parse,
  which leaves out the pieces with non-ASCII minute digits that `%M` accepts (see
  Text.IsDigit).
- DateTimeParse.ReadNumber: reads the regular expressions of `strptime` by their outcome
  on these texts, not by backtracking. A number is followed by a colon or by am/pm, never
  by a digit, so the outcomes agree on ASCII digits; the other Unicode decimal digits
  that `%M` accepts are left out (see Text.IsDigit).
- DateTimeParse.ReadNumberReads: states a read of ASCII digits only (see Text.IsDigit).
- Scraper.SUEventScraper.GetEvents: returns the list as a value. The source returns the
  same list object, so the caller and the scraper share it afterwards; that aliasing is
  not modelled.
- Scraper.SUEventScraper.ScrapeCurrentEvents: `false` stands for the exception the method
  raises. That happens when there is no "msl_eventlist" container, or when an item without
  a link fails: the handler looks the link up again to report it. The fetch of the index
  page and its errors are not modelled.

## Findings

| source | as written | input that shows it | evidently intended | confidence | as-written member | corrected member |
|---|---|---|---|---|---|---|
| main.py:143-144 | when the localised end is not after the start, one day is added to the aware end datetime, which keeps the UTC offset the end was first localised with | "Sunday 27 October 2024" with "11:30pm - 12:15am": the start is 23:30 GMT, the end 00:15 localised on the 27th is still BST (+01:00), and one day on it is 2024-10-28 00:15 +01:00, 23:15 UTC, 15 minutes before the start | the end strictly follows the start; the end time is localised on the next date, 2024-10-28 00:15 GMT | not executed | RolloverFinding.AutumnRolloverGoesBackwards | RolloverFinding.EndFollowsStart |

=== FILE: calendar.dfy ===
/**
 * The proleptic Gregorian calendar of Python's `datetime.date` (years 1 to 9999), its day
 * ordinal and weekday, the day after a date, and the Europe/London UTC offset of a local
 * wall-clock time.
 */
module Calendar {
  import opened Wrappers

  datatype Date = Date(year: int, month: int, day: int)

  const MaxDate := Date(9999, 12, 31)

  predicate IsLeapYear(y: int) {
    y % 4 == 0 && (y % 100 != 0 || y % 400 == 0)
  }

  function DaysInMonth(y: int, m: int): (n: int)
    requires 1 <= m <= 12
    ensures 28 <= n <= 31
    ensures m == 2 ==> (n == 29 <==> IsLeapYear(y))
  {
    if m == 2 then (if IsLeapYear(y) then 29 else 28)
    else if m == 4 || m == 6 || m == 9 || m == 11 then 30
    else 31
  }

  /** What `datetime.date(year, month, day)` accepts without raising `ValueError`. */
  predicate ValidDate(d: Date) {
    1 <= d.year <= 9999 && 1 <= d.month <= 12 && 1 <= d.day <= DaysInMonth(d.year, d.month)
  }

  function DaysBeforeYear(year: int): int {
    var y := year - 1;
    y * 365 + y / 4 - y / 100 + y / 400
  }

  function DaysBeforeMonth(year: int, month: int): int
    requires 1 <= month <= 12
  {
    [0, 31, 59, 90, 120, 151, 181, 212, 243, 273, 304, 334][month - 1]
      + (if month > 2 && IsLeapYear(year) then 1 else 0)
  }

  /** Python's `date.toordinal()`: 0001-01-01 is day 1. */
  function Ordinal(d: Date): int
    requires ValidDate(d)
  {
    DaysBeforeYear(d.year) + DaysBeforeMonth(d.year, d.month) + d.day
  }

  /** Python's `date.weekday()`: 0 is Monday, 6 is Sunday. */
  function Weekday(d: Date): (w: int)
    requires ValidDate(d)
    ensures 0 <= w < 7
  {
    (Ordinal(d) + 6) % 7
  }

  /** `d + timedelta(days=1)`, which raises `OverflowError` past 9999-12-31. */
  function NextDay(d: Date): (r: Option<Date>)
    requires ValidDate(d)
    ensures r.None? <==> d == MaxDate
    ensures r.Some? ==> ValidDate(r.value)
  {
    if d.day < DaysInMonth(d.year, d.month) then Some(Date(d.year, d.month, d.day + 1))
    else if d.month < 12 then Some(Date(d.year, d.month + 1, 1))
    else if d.year < 9999 then Some(Date(d.year + 1, 1, 1))
    else None
  }

  /** A year has 366 days when it is a leap year, 365 otherwise. */
  lemma YearLength(year: int)
    ensures DaysBeforeYear(year + 1) == DaysBeforeYear(year) + (if IsLeapYear(year) then 366 else 365)
  {
    var y := year - 1;
    assert DaysBeforeYear(year + 1) - DaysBeforeYear(year)
        == 365 + (year / 4 - y / 4) - (year / 100 - y / 100) + (year / 400 - y / 400);
    DivStep4(y);
    DivStep100(y);
    DivStep400(y);
    CenturyMultiples(year);
  }

  lemma DivStep4(a: int)
    ensures (a + 1) / 4 == a / 4 + (if (a + 1) % 4 == 0 then 1 else 0)
  {
  }

  lemma DivStep100(a: int)
    ensures (a + 1) / 100 == a / 100 + (if (a + 1) % 100 == 0 then 1 else 0)
  {
  }

  lemma DivStep400(a: int)
    ensures (a + 1) / 400 == a / 400 + (if (a + 1) % 400 == 0 then 1 else 0)
  {
  }

  /** A multiple of 400 is a multiple of 100, and a multiple of 100 one of 4. */
  lemma CenturyMultiples(a: int)
    ensures a % 400 == 0 ==> a % 100 == 0
    ensures a % 100 == 0 ==> a % 4 == 0
  {
    if a % 400 == 0 {
      MultipleOfFactor(a, a / 400 * 4, 100);
    }
    if a % 100 == 0 {
      MultipleOfFactor(a, a / 100 * 25, 4);
    }
  }

  /** `a == k * t` leaves no remainder modulo `k`. */
  lemma MultipleOfFactor(a: int, t: int, k: int)
    requires k > 0 && a == k * t
    ensures a % k == 0
  {
    var d, m := a / k, a % k;
    assert a == k * d + m && 0 <= m < k;
    assert k * (t - d) == m;
    ScaledAwayFromZero(k, t - d);
  }

  /** A nonzero multiple of `k > 0` is at least `k` away from zero. */
  lemma ScaledAwayFromZero(k: int, x: int)
    requires k > 0
    ensures x >= 1 ==> k * x >= k
    ensures x <= -1 ==> k * x <= -k
  {
  }

  lemma ModBack7(o: int)
    ensures (o - ((o + 6) % 7 + 1) % 7 + 6) % 7 == 6
  {
  }

  /** The day after a date is the next ordinal: a day is always 1440 minutes on. */
  lemma NextDayOrdinal(d: Date)
    requires ValidDate(d) && d != MaxDate
    ensures Ordinal(NextDay(d).value) == Ordinal(d) + 1
  {
    if d.day == DaysInMonth(d.year, d.month) && d.month == 12 {
      YearLength(d.year);
    }
  }

  /** The last Sunday of March or October, the months in which the UK clocks change. */
  function LastSunday(y: int, m: int): (d: Date)
    requires 1 <= y <= 9999 && (m == 3 || m == 10)
    ensures ValidDate(d) && d.year == y && d.month == m
    ensures Weekday(d) == 6 && d.day + 7 > DaysInMonth(y, m)
  {
    var last := Date(y, m, 31);
    var back := (Weekday(last) + 1) % 7;
    var d := Date(y, m, 31 - back);
    assert Ordinal(d) == Ordinal(last) - back;
    ModBack7(Ordinal(last));
    d
  }

  /** The day on which the clocks go forward (last Sunday of March). */
  function SpringChange(y: int): Date
    requires 1 <= y <= 9999
  {
    LastSunday(y, 3)
  }

  /** The day on which the clocks go back (last Sunday of October). */
  function AutumnChange(y: int): Date
    requires 1 <= y <= 9999
  {
    LastSunday(y, 10)
  }

  /** Whether (m1, d1) comes strictly before (m2, d2) in the same year. */
  predicate Before(m1: int, d1: int, m2: int, d2: int) {
    m1 < m2 || (m1 == m2 && d1 < d2)
  }

  /**
   * The Europe/London offset in minutes, as `pytz` gives it for a local time with
   * `is_dst=False`: British Summer Time (+60) from 02:00 local on the last Sunday of March
   * to 01:00 local on the last Sunday of October, GMT (0) otherwise. With `is_dst=False` a
   * time that does not exist (01:00-01:59 on the March day) and a time that occurs twice
   * (01:00-01:59 on the October day) both take the standard offset, GMT.
   */
  function UkOffset(d: Date, minute: int): (offset: int)
    requires ValidDate(d)
    ensures offset == 0 || offset == 60
  {
    var spring := SpringChange(d.year);
    var autumn := AutumnChange(d.year);
    if d == spring then (if minute >= 120 then 60 else 0)
    else if d == autumn then (if minute < 60 then 60 else 0)
    else if Before(3, spring.day, d.month, d.day) && Before(d.month, d.day, 10, autumn.day) then 60
    else 0
  }

  /** A day on which the UK offset changes. */
  predicate IsChangeDay(d: Date)
    requires ValidDate(d)
  {
    d == SpringChange(d.year) || d == AutumnChange(d.year)
  }

  /** Apart from the two change days, every time of a day has the same offset. */
  lemma OffsetConstantOnOrdinaryDay(d: Date, m1: int, m2: int)
    requires ValidDate(d) && !IsChangeDay(d)
    ensures UkOffset(d, m1) == UkOffset(d, m2)
  {
  }

  /** Summer dates are on BST and winter dates on GMT, whatever the year. */
  lemma OffsetBySeason(d: Date, minute: int)
    requires ValidDate(d)
    ensures 4 <= d.month <= 9 ==> UkOffset(d, minute) == 60
    ensures (d.month <= 2 || d.month >= 11) ==> UkOffset(d, minute) == 0
  {
  }

  /** On the change days the offset switches at 02:00 local time in March and 01:00 in October. */
  lemma OffsetOnChangeDays(y: int, minute: int)
    requires 1 <= y <= 9999 && 0 <= minute < 1440
    ensures UkOffset(SpringChange(y), minute) == (if minute < 120 then 0 else 60)
    ensures UkOffset(AutumnChange(y), minute) == (if minute < 60 then 60 else 0)
  {
    assert SpringChange(y) != AutumnChange(y);
  }

  /**
   * The offset never changes between 02:00 on one day and 01:00 on the next: both changes
   * happen in the small hours, so late evening and the first hour after midnight share it.
   */
  lemma OffsetAcrossMidnight(d: Date, a: int, b: int)
    requires ValidDate(d) && d != MaxDate && a >= 120 && b < 60
    ensures UkOffset(NextDay(d).value, b) == UkOffset(d, a)
  {
  }

  /** Two consecutive dates, neither a change day, have the same offset all day long. */
  lemma OffsetAcrossOrdinaryDays(d: Date, a: int, b: int)
    requires ValidDate(d) && d != MaxDate && !IsChangeDay(d) && !IsChangeDay(NextDay(d).value)
    ensures UkOffset(NextDay(d).value, b) == UkOffset(d, a)
  {
  }
}

=== FILE: datetime_parse.dfy ===
/**
 * The date/time normaliser `SUEventScraper._parse_event_datetime`: a date text such as
 * "Monday 03 June 2024" and a time range such as "7pm - 11pm" become a start and an end
 * stamp on the Europe/London clock, formatted as `YYYY-MM-DD HH:MM:SS+HHMM`.
 *
 * Times are minutes since local midnight, offsets are minutes east of UTC, and an instant
 * is the date's ordinal in minutes plus the local time minus the offset.
 */
module DateTimeParse {
  import opened Wrappers
  import opened Text
  import opened Calendar

  // ---------------------------------------------------------------------------------------
  // The date text, read with `strptime(text, "%A %d %B %Y")`

  /** The names `%A` accepts, in `date.weekday()` order; matching ignores case. */
  const WeekdayNames: seq<string> :=
    ["monday", "tuesday", "wednesday", "thursday", "friday", "saturday", "sunday"]

  /** The names `%B` accepts, January first; matching ignores case. */
  const MonthNames: seq<string> :=
    ["january", "february", "march", "april", "may", "june", "july", "august",
     "september", "october", "november", "december"]

  /** The first name that `w` spells, ignoring case. */
  function NameIndex(w: string, names: seq<string>): (r: Option<nat>)
    ensures r.Some? ==> r.value < |names| && EqualsIgnoreCase(w, names[r.value])
    ensures r.Some? ==> forall j :: 0 <= j < r.value ==> !EqualsIgnoreCase(w, names[j])
    ensures r.None? ==> forall j :: 0 <= j < |names| ==> !EqualsIgnoreCase(w, names[j])
  {
    if names == [] then None
    else if EqualsIgnoreCase(w, names[0]) then Some(0)
    else match NameIndex(w, names[1..])
      case None => None
      case Some(i) => Some(i + 1)
  }

  /**
   * `datetime.strptime(text, "%A %d %B %Y").date()`: a full weekday name, a day of one or
   * two digits, a full month name and a year of exactly four digits, separated by runs of
   * whitespace, with nothing before or after.
   */
  function ParseDate(text: string): (r: Option<Date>)
    ensures r.Some? ==> ValidDate(r.value)
    ensures r.Some? ==> text != [] && !IsSpace(text[0]) && !IsSpace(text[|text| - 1])
  {
    if text == [] || IsSpace(text[0]) || IsSpace(text[|text| - 1]) then None
    else DateOfWords(Words(text))
  }

  /**
   * The four fields of the date text; the weekday is read but never checked against the
   * date, and the date must exist.
   */
  function DateOfWords(ws: seq<string>): (r: Option<Date>)
    ensures r.Some? ==> ValidDate(r.value)
    ensures r.Some? ==> |ws| == 4 && NameIndex(ws[0], WeekdayNames).Some?
    ensures r.Some? ==> 1 <= |ws[1]| <= 2 && AllDigits(ws[1]) && r.value.day == NatOf(ws[1])
    ensures r.Some? ==> |ws[3]| == 4 && AllDigits(ws[3]) && r.value.year == NatOf(ws[3])
    ensures r.Some? ==> NameIndex(ws[2], MonthNames) == Some(r.value.month - 1)
  {
    if |ws| != 4 || NameIndex(ws[0], WeekdayNames).None? then None
    else if !(1 <= |ws[1]| <= 2 && AllDigits(ws[1])) then None
    else if !(|ws[3]| == 4 && AllDigits(ws[3])) then None
    else match NameIndex(ws[2], MonthNames)
      case None => None
      case Some(m) =>
        var d := Date(NatOf(ws[3]), m + 1, NatOf(ws[1]));
        if ValidDate(d) then Some(d) else None
  }

  /** A date as the calendar row shows it: "Monday 03 June 2024". */
  function DateText(weekday: nat, d: Date): string
    requires weekday < 7 && ValidDate(d)
  {
    Join([Capitalise(WeekdayNames[weekday]), Pad(d.day, 2), Capitalise(MonthNames[d.month - 1]), Pad(d.year, 4)], ' ')
  }

  /** The names are distinct lower-case words. */
  lemma NamesAreDistinctWords()
    ensures forall i :: 0 <= i < 7 ==> IsLowerWord(WeekdayNames[i]) && WeekdayNames[i] != []
    ensures forall i :: 0 <= i < 12 ==> IsLowerWord(MonthNames[i]) && MonthNames[i] != []
    ensures forall i, j :: 0 <= i < j < 7 ==> WeekdayNames[i] != WeekdayNames[j]
    ensures forall i, j :: 0 <= i < j < 12 ==> MonthNames[i] != MonthNames[j]
  {
  }

  /** A capitalised name is found at its own place. */
  lemma {:induction false} CapitalisedNameIndex(names: seq<string>, i: nat)
    requires i < |names| && IsLowerWord(names[i]) && names[i] != []
    requires forall j, k :: 0 <= j < k < |names| ==> names[j] != names[k]
    ensures NameIndex(Capitalise(names[i]), names) == Some(i)
    ensures IsWord(Capitalise(names[i]))
  {
    var w := Capitalise(names[i]);
    CapitaliseMatches(names[i]);
    var r := NameIndex(w, names);
    EqualsIgnoreCaseUnique(w, names[r.value], names[i]);
    assert w[0] == Upper(names[i][0]);
    forall k | 1 <= k < |w| ensures !IsSpace(w[k]) {
      assert w[k] == names[i][k];
    }
  }

  lemma {:induction false} DigitsAreWord(s: string)
    requires s != [] && AllDigits(s)
    ensures IsWord(s)
  {
  }

  /** A text without whitespace at its ends is read through its words. */
  lemma {:induction false} ParseDateOfWords(text: string, ws: seq<string>)
    requires text != [] && !IsSpace(text[0]) && !IsSpace(text[|text| - 1])
    requires Words(text) == ws
    ensures ParseDate(text) == DateOfWords(ws)
  {
  }

  /** Four well-formed fields read as the date they name. */
  lemma {:induction false} DateOfFields(w: string, dd: string, m: string, y: string, mi: nat)
    requires NameIndex(w, WeekdayNames).Some? && NameIndex(m, MonthNames) == Some(mi)
    requires 1 <= |dd| <= 2 && AllDigits(dd) && |y| == 4 && AllDigits(y)
    requires ValidDate(Date(NatOf(y), mi + 1, NatOf(dd)))
    ensures DateOfWords([w, dd, m, y]) == Some(Date(NatOf(y), mi + 1, NatOf(dd)))
  {
  }

  /**
   * Every valid date, written as the site writes it, reads back as itself, whichever
   * weekday name stands in front of it.
   */
  lemma {:induction false} ParseDateText(weekday: nat, d: Date)
    requires weekday < 7 && ValidDate(d)
    ensures ParseDate(DateText(weekday, d)) == Some(d)
  {
    var w, dd, m, y := Capitalise(WeekdayNames[weekday]), Pad(d.day, 2), Capitalise(MonthNames[d.month - 1]), Pad(d.year, 4);
    DateTextFields(weekday, d);
    ParseJoinedDate(w, dd, m, y, d.month - 1);
  }

  /** The four fields of a date text are words that name the date's parts. */
  lemma {:induction false} DateTextFields(weekday: nat, d: Date)
    requires weekday < 7 && ValidDate(d)
    ensures var w, dd, m, y := Capitalise(WeekdayNames[weekday]), Pad(d.day, 2), Capitalise(MonthNames[d.month - 1]), Pad(d.year, 4);
      IsWord(w) && IsWord(dd) && IsWord(m) && IsWord(y)
      && NameIndex(w, WeekdayNames).Some? && NameIndex(m, MonthNames) == Some(d.month - 1)
      && |dd| == 2 && AllDigits(dd) && |y| == 4 && AllDigits(y)
      && Date(NatOf(y), d.month - 1 + 1, NatOf(dd)) == d
  {
    NamesOfDate(weekday, d);
    DigitsAreWord(Pad(d.day, 2));
    DigitsAreWord(Pad(d.year, 4));
  }

  /** Four well-formed fields joined by spaces read as the date they name. */
  lemma {:induction false} ParseJoinedDate(w: string, dd: string, m: string, y: string, mi: nat)
    requires IsWord(w) && IsWord(dd) && IsWord(m) && IsWord(y)
    requires NameIndex(w, WeekdayNames).Some? && NameIndex(m, MonthNames) == Some(mi)
    requires 1 <= |dd| <= 2 && AllDigits(dd) && |y| == 4 && AllDigits(y)
    requires ValidDate(Date(NatOf(y), mi + 1, NatOf(dd)))
    ensures ParseDate(Join([w, dd, m, y], ' ')) == Some(Date(NatOf(y), mi + 1, NatOf(dd)))
  {
    FourWords(w, dd, m, y);
    ParseDateOfWords(Join([w, dd, m, y], ' '), [w, dd, m, y]);
    DateOfFields(w, dd, m, y, mi);
  }

  /** Four words joined by spaces: the text has no whitespace at its ends and splits back. */
  lemma {:induction false} FourWords(a: string, b: string, c: string, d: string)
    requires IsWord(a) && IsWord(b) && IsWord(c) && IsWord(d)
    ensures var t := Join([a, b, c, d], ' ');
      t != [] && !IsSpace(t[0]) && !IsSpace(t[|t| - 1]) && Words(t) == [a, b, c, d]
  {
    var ws := [a, b, c, d];
    assert forall i :: 0 <= i < 4 ==> IsWord(ws[i]);
    WordsOfJoin(ws);
    JoinEnds(ws, ' ');
  }

  /** The capitalised names of a date are words that the name lookups find. */
  lemma {:induction false} NamesOfDate(weekday: nat, d: Date)
    requires weekday < 7 && ValidDate(d)
    ensures IsWord(Capitalise(WeekdayNames[weekday])) && NameIndex(Capitalise(WeekdayNames[weekday]), WeekdayNames).Some?
    ensures IsWord(Capitalise(MonthNames[d.month - 1]))
    ensures NameIndex(Capitalise(MonthNames[d.month - 1]), MonthNames) == Some(d.month - 1)
  {
    NamesAreDistinctWords();
    CapitalisedNameIndex(WeekdayNames, weekday);
    CapitalisedNameIndex(MonthNames, d.month - 1);
  }

  // ---------------------------------------------------------------------------------------
  // The time text

  /** `time.replace(' ', '').split("-")`: the pieces of the time range. */
  function TimeParts(time: string): seq<string> {
    Split(RemoveSpaces(time), '-')
  }

  /** A component equal to "noon" in any case becomes "12pm"; nothing else is rewritten. */
  function NoonAlias(c: string): (r: string)
    ensures EqualsIgnoreCase(c, "noon") ==> r == "12pm"
    ensures !EqualsIgnoreCase(c, "noon") ==> r == c
  {
    if EqualsIgnoreCase(c, "noon") then "12pm" else c
  }

  /** `%p`: "am" or "pm" in any case and nothing after it; `Some(true)` is pm. */
  function Meridiem(s: string): Option<bool> {
    if |s| == 2 && Lower(s[1]) == 'm' && (Lower(s[0]) == 'a' || Lower(s[0]) == 'p')
    then Some(Lower(s[0]) == 'p')
    else None
  }

  /** The 24-hour hour of a 12-hour clock hour: 12am is 0, 12pm is 12, h pm is h + 12. */
  function To24(h: int, pm: bool): (r: int)
    requires 1 <= h <= 12
    ensures 0 <= r < 24
    ensures r % 12 == h % 12 && (r >= 12 <==> pm)
  {
    if pm then (if h == 12 then 12 else h + 12)
    else (if h == 12 then 0 else h)
  }

  /**
   * One or two leading digits worth `lo` to `hi`, and the text after them: `%I` is this
   * with 1 to 12, `%M` with 0 to 59. The regular expression may give back a digit, but what
   * follows a number here (a colon, or am/pm) never starts with a digit, so a third digit or
   * a value out of range fails the whole match.
   */
  function ReadNumber(s: string, lo: nat, hi: nat): (r: Option<(nat, string)>)
    ensures r.Some? ==> lo <= r.value.0 <= hi
  {
    var n := if |s| >= 2 && IsDigit(s[0]) && IsDigit(s[1]) then 2
             else if s != [] && IsDigit(s[0]) then 1
             else 0;
    if n == 0 || (n < |s| && IsDigit(s[n])) then None
    else
      var v := NatOf(s[..n]);
      if v < lo || v > hi then None else Some((v, s[n..]))
  }

  /** "%I%p" on the text after the separator: an hour, then am or pm. */
  function ClockWithoutMinutes(b: string): (r: Option<int>)
    ensures r.Some? ==> 0 <= r.value < 1440 && r.value % 60 == 0
  {
    match ReadNumber(b, 1, 12)
    case None => None
    case Some(hr) =>
      match Meridiem(hr.1)
      case None => None
      case Some(pm) => Some(To24(hr.0, pm) * 60)
  }

  /** "%I:%M%p" on the text after the separator: an hour, a colon, minutes, then am or pm. */
  function ClockWithMinutes(b: string): (r: Option<int>)
    ensures r.Some? ==> 0 <= r.value < 1440
  {
    match ReadNumber(b, 1, 12)
    case None => None
    case Some(hr) =>
      var rest := hr.1;
      if rest == [] || rest[0] != ':' then None
      else match ReadNumber(rest[1..], 0, 59)
        case None => None
        case Some(mt) =>
          match Meridiem(mt.1)
          case None => None
          case Some(pm) => Some(To24(hr.0, pm) * 60 + mt.0)
  }

  /**
   * `strptime(f"{date} {c}", "%Y-%m-%d %I%p")` when `c` has no ':', otherwise with
   * "%Y-%m-%d %I:%M%p", as minutes after midnight. `%I` is one or two digits worth 1 to 12,
   * `%M` one or two digits worth 0 to 59, `%p` is am or pm; the `\s+` that the format's
   * space becomes also takes any whitespace at the start of `c`.
   */
  function ParseClock(c: string): (r: Option<int>)
    ensures r.Some? ==> 0 <= r.value < 1440
    ensures r.Some? && ':' !in c ==> r.value % 60 == 0
  {
    if ':' in c then ClockWithMinutes(StripLeading(c)) else ClockWithoutMinutes(StripLeading(c))
  }

  /**
   * What a number read consists of: the value of the one or two digits the text starts
   * with, which no further digit follows, and the text after them.
   */
  lemma {:induction false} ReadNumberReads(s: string, lo: nat, hi: nat)
    requires ReadNumber(s, lo, hi).Some?
    ensures var r := ReadNumber(s, lo, hi).value; var k := |s| - |r.1|;
      1 <= k <= 2 && AllDigits(s[..k]) && r.0 == NatOf(s[..k]) && r.1 == s[k..]
      && (r.1 == [] || !IsDigit(r.1[0]))
  {
  }

  /** Digits worth `lo` to `hi`, followed by a non-digit, are read as their value. */
  lemma {:induction false} ReadNumberOf(digits: string, rest: string, lo: nat, hi: nat)
    requires 1 <= |digits| <= 2 && AllDigits(digits) && lo <= NatOf(digits) <= hi
    requires rest == [] || !IsDigit(rest[0])
    ensures ReadNumber(digits + rest, lo, hi) == Some((NatOf(digits), rest))
  {
    var s := digits + rest;
    assert s[..|digits|] == digits;
    assert s[|digits|..] == rest;
    assert IsDigit(s[0]);
    if |digits| == 2 {
      assert IsDigit(s[1]);
    }
  }

  /**
   * The texts "%I%p" accepts: one or two digits worth 1 to 12, then "am" or "pm" in any
   * case and nothing else; `v` is the minute of the day they stand for.
   */
  predicate IsHourForm(t: string, v: int) {
    var k := |t| - 2;
    1 <= k <= 2 && AllDigits(t[..k]) && 1 <= NatOf(t[..k]) <= 12
    && Lower(t[k + 1]) == 'm' && (Lower(t[k]) == 'a' || Lower(t[k]) == 'p')
    && v == To24(NatOf(t[..k]), Lower(t[k]) == 'p') * 60
  }

  /**
   * The texts "%I:%M%p" accepts with `n` hour digits: the hour digits worth 1 to 12, a
   * colon, one or two digits worth 0 to 59, then "am" or "pm" in any case and nothing else.
   */
  predicate IsMinuteFormAt(t: string, n: nat, v: int) {
    var k := |t| - 2;
    1 <= n <= 2 && n + 2 <= k <= n + 3 && AllDigits(t[..n]) && 1 <= NatOf(t[..n]) <= 12
    && t[n] == ':' && AllDigits(t[n + 1..k]) && NatOf(t[n + 1..k]) <= 59
    && Lower(t[k + 1]) == 'm' && (Lower(t[k]) == 'a' || Lower(t[k]) == 'p')
    && v == To24(NatOf(t[..n]), Lower(t[k]) == 'p') * 60 + NatOf(t[n + 1..k])
  }

  predicate IsMinuteForm(t: string, v: int) {
    IsMinuteFormAt(t, 1, v) || IsMinuteFormAt(t, 2, v)
  }

  /** "%I%p" reads `t` as `v` exactly when `t` has that form and stands for `v`. */
  lemma {:induction false} HourFormDecides(t: string, v: int)
    ensures ClockWithoutMinutes(t) == Some(v) <==> IsHourForm(t, v)
  {
    if ClockWithoutMinutes(t) == Some(v) {
      ReadNumberReads(t, 1, 12);
    }
    if IsHourForm(t, v) {
      var k := |t| - 2;
      assert t == t[..k] + t[k..];
      ReadNumberOf(t[..k], t[k..], 1, 12);
    }
  }

  /** "%I:%M%p" reads `t` as `v` exactly when `t` has that form and stands for `v`. */
  lemma {:induction false} MinuteFormDecides(t: string, v: int)
    ensures ClockWithMinutes(t) == Some(v) <==> IsMinuteForm(t, v)
  {
    if ClockWithMinutes(t) == Some(v) {
      MinuteFormOfClock(t, v);
    }
    if IsMinuteForm(t, v) {
      ClockOfMinuteForm(t, if IsMinuteFormAt(t, 1, v) then 1 else 2, v);
    }
  }

  lemma {:induction false} MinuteFormOfClock(t: string, v: int)
    requires ClockWithMinutes(t) == Some(v)
    ensures IsMinuteForm(t, v)
  {
    var hr := ReadNumber(t, 1, 12).value;
    ReadNumberReads(t, 1, 12);
    var n := |t| - |hr.1|;
    var mt := ReadNumber(hr.1[1..], 0, 59).value;
    ReadNumberReads(hr.1[1..], 0, 59);
    var pm := Meridiem(mt.1).value;
    assert v == To24(hr.0, pm) * 60 + mt.0;
    assert t[n + 1..] == hr.1[1..];
    assert t[n + 1..|t| - 2] == hr.1[1..][..|hr.1| - 1 - |mt.1|];
    assert t[|t| - 2..] == mt.1;
    assert IsMinuteFormAt(t, n, v);
  }

  lemma {:induction false} ClockOfMinuteForm(t: string, n: nat, v: int)
    requires IsMinuteFormAt(t, n, v)
    ensures ClockWithMinutes(t) == Some(v)
  {
    var k := |t| - 2;
    assert t == t[..n] + t[n..];
    ReadNumberOf(t[..n], t[n..], 1, 12);
    assert t[n..][1..] == t[n + 1..];
    assert t[n + 1..] == t[n + 1..k] + t[k..];
    ReadNumberOf(t[n + 1..k], t[k..], 0, 59);
  }

  /**
   * The clock parse in full: it reads `c` as `v` exactly when `c`, after its leading
   * whitespace, has the "%I:%M%p" form (when `c` holds a colon) or the "%I%p" form
   * (otherwise) and stands for `v`.
   */
  lemma {:induction false} ParseClockDecides(c: string, v: int)
    ensures ParseClock(c) == Some(v) <==>
      if ':' in c then IsMinuteForm(StripLeading(c), v) else IsHourForm(StripLeading(c), v)
  {
    HourFormDecides(StripLeading(c), v);
    MinuteFormDecides(StripLeading(c), v);
  }

  /** The hour of the 12-hour clock that shows a 24-hour hour. */
  function Hour12(hour: nat): (h: nat)
    requires hour < 24
    ensures 1 <= h <= 12
  {
    if hour % 12 == 0 then 12 else hour % 12
  }

  /** A number from 1 to 12 without padding. */
  function HourDigits(h: nat): (r: string)
    requires 1 <= h <= 12
    ensures 1 <= |r| <= 2 && AllDigits(r) && NatOf(r) == h
  {
    if h < 10 then Pad(h, 1) else Pad(h, 2)
  }

  function MeridiemText(hour: nat): string {
    if hour < 12 then "am" else "pm"
  }

  /** A whole hour as the site writes it: "7pm", "12am". */
  function HourText(hour: nat): string
    requires hour < 24
  {
    HourDigits(Hour12(hour)) + MeridiemText(hour)
  }

  /** A time with minutes as the site writes it: "7:30pm". */
  function MinuteText(hour: nat, minute: nat): string
    requires hour < 24 && minute < 60
  {
    HourDigits(Hour12(hour)) + ":" + Pad(minute, 2) + MeridiemText(hour)
  }

  lemma {:induction false} To24OfHour12(hour: nat)
    requires hour < 24
    ensures To24(Hour12(hour), hour >= 12) == hour
  {
  }

  lemma {:induction false} StartsWithDigit(c: string)
    requires c != [] && IsDigit(c[0])
    ensures StripLeading(c) == c
  {
  }

  lemma MeridiemOf(pm: bool)
    ensures Meridiem(if pm then "pm" else "am") == Some(pm)
    ensures ':' !in (if pm then "pm" else "am")
  {
  }

  /** An hour of one or two digits followed by am or pm. */
  lemma {:induction false} ParseHourAndMeridiem(hd: string, tail: string, pm: bool)
    requires 1 <= |hd| <= 2 && AllDigits(hd) && 1 <= NatOf(hd) <= 12
    requires tail == (if pm then "pm" else "am")
    ensures ParseClock(hd + tail) == Some(To24(NatOf(hd), pm) * 60)
  {
    StartsWithDigit(hd + tail);
    ReadNumberOf(hd, tail, 1, 12);
    MeridiemOf(pm);
    assert ':' !in hd;
    assert ':' !in hd + tail;
  }

  /** An hour of one or two digits, a colon, two minute digits, then am or pm. */
  lemma {:induction false} ParseHourMinuteAndMeridiem(hd: string, md: string, tail: string, pm: bool)
    requires 1 <= |hd| <= 2 && AllDigits(hd) && 1 <= NatOf(hd) <= 12
    requires |md| == 2 && AllDigits(md) && NatOf(md) <= 59
    requires tail == (if pm then "pm" else "am")
    ensures ParseClock(hd + ":" + md + tail) == Some(To24(NatOf(hd), pm) * 60 + NatOf(md))
  {
    ColonPieces(hd, md, tail);
    ReadNumberOf(hd, ":" + md + tail, 1, 12);
    ReadNumberOf(md, tail, 0, 59);
    MeridiemOf(pm);
    ClockWithMinutesOf(hd + ":" + md + tail, |hd|, NatOf(hd), ":" + md + tail, NatOf(md), tail, pm);
  }

  lemma {:induction false} ColonPieces(hd: string, md: string, tail: string)
    requires hd != []
    ensures hd + ":" + md + tail == hd + (":" + md + tail)
    ensures (":" + md + tail)[1..] == md + tail
    ensures (hd + ":" + md + tail)[|hd|] == ':'
    ensures (hd + ":" + md + tail)[0] == hd[0]
  {
  }

  /** The steps of "%I:%M%p" on a text that starts with a digit and has a colon at `i`. */
  lemma {:induction false} ClockWithMinutesOf(c: string, i: nat, h: nat, after: string, m: nat, tail: string, pm: bool)
    requires i < |c| && c[i] == ':' && IsDigit(c[0])
    requires ReadNumber(c, 1, 12) == Some((h, after))
    requires after != [] && after[0] == ':'
    requires ReadNumber(after[1..], 0, 59) == Some((m, tail))
    requires Meridiem(tail) == Some(pm)
    ensures ParseClock(c) == Some(To24(h, pm) * 60 + m)
  {
    assert ':' in c;
    StartsWithDigit(c);
  }

  /** Every whole hour of the day, written "7pm" or "12am", reads back as itself. */
  lemma {:induction false} ParseHourText(hour: nat)
    requires hour < 24
    ensures ParseClock(HourText(hour)) == Some(hour * 60)
  {
    ParseHourAndMeridiem(HourDigits(Hour12(hour)), MeridiemText(hour), hour >= 12);
    To24OfHour12(hour);
  }

  /** Every minute of the day, written "7:30pm" or "12:05am", reads back as itself. */
  lemma {:induction false} ParseMinuteText(hour: nat, minute: nat)
    requires hour < 24 && minute < 60
    ensures ParseClock(MinuteText(hour, minute)) == Some(hour * 60 + minute)
  {
    var hd, md, tail := HourDigits(Hour12(hour)), Pad(minute, 2), MeridiemText(hour);
    To24OfHour12(hour);
    ParseHourMinuteAndMeridiem(hd, md, tail, hour >= 12);
    assert MinuteText(hour, minute) == hd + ":" + md + tail;
  }

  /** "noon", in any case, reads exactly as "12pm" does: midday. */
  lemma {:induction false} NoonIsMidday(c: string)
    requires EqualsIgnoreCase(c, "noon")
    ensures ParseClock(NoonAlias(c)) == ParseClock("12pm") == Some(720)
  {
    TwelvePm();
  }

  /** "12noon" is not the alias, and `%I%p` cannot read it: the whole parse fails. */
  lemma TwelveNoonIsRejected()
    ensures NoonAlias("12noon") == "12noon"
    ensures ParseClock(NoonAlias("12noon")) == None
  {
    assert !EqualsIgnoreCase("12noon", "noon");
    var b := "12noon";
    assert StripLeading(b) == b;
    assert IsDigit(b[0]) && IsDigit(b[1]) && !IsDigit(b[2]);
    assert b[2..] == "noon";
  }

  /** A bare hour without am or pm, such as "7", is rejected. */
  lemma {:induction false} BareHourIsRejected(hour: nat)
    requires 1 <= hour <= 12
    ensures ParseClock(HourDigits(hour)) == None
  {
    var c := HourDigits(hour);
    StartsWithDigit(c);
    assert ':' !in c;
    ReadNumberOf(c, [], 1, 12);
    assert c + [] == c;
  }

  /** Midnight: 12am is hour 0. */
  lemma TwelveAm()
    ensures ParseClock("12am") == Some(0)
  {
    var twelve := "12";
    assert NatOf(twelve) == 12;
    ParseHourAndMeridiem(twelve, "am", false);
    assert twelve + "am" == "12am";
  }

  /** Midday: 12pm is hour 12. */
  lemma TwelvePm()
    ensures ParseClock("12pm") == Some(720)
  {
    var twelve := "12";
    assert NatOf(twelve) == 12;
    ParseHourAndMeridiem(twelve, "pm", true);
    assert twelve + "pm" == "12pm";
  }

  // ---------------------------------------------------------------------------------------
  // Localised stamps and the rollover

  /** A local wall-clock time on a date, with the UTC offset attached to it. */
  datatype Stamp = Stamp(date: Date, minute: int, offset: int)

  predicate ValidStamp(s: Stamp) {
    ValidDate(s.date) && 0 <= s.minute < 1440 && -1440 < s.offset < 1440
  }

  /** The absolute time of a stamp, in minutes: local time minus offset. */
  function Instant(s: Stamp): int
    requires ValidDate(s.date)
  {
    Ordinal(s.date) * 1440 + s.minute - s.offset
  }

  /**
   * Whether `tz.localize` can handle a time on date `d`: `pytz` looks up the datetime one
   * day before and one day after it, which raises `OverflowError` on the first and on the
   * last date `datetime` has.
   */
  predicate Localizable(d: Date) {
    d != Date(1, 1, 1) && d != MaxDate
  }

  /** `tz.localize(datetime)` for Europe/London, on a date it does not overflow on. */
  function Localize(d: Date, minute: int): (s: Stamp)
    requires ValidDate(d) && Localizable(d) && 0 <= minute < 1440
    ensures s.date == d && s.minute == minute && s.offset == UkOffset(d, minute)
    ensures ValidStamp(s)
  {
    Stamp(d, minute, UkOffset(d, minute))
  }

  datatype Span = Span(start: Stamp, end: Stamp)

  /**
   * `if end_dt <= start_dt: end_dt = end_dt + timedelta(days=1)`: the end moves to the next
   * date with the same wall-clock time and the same offset, exactly 24 hours later; past
   * 9999-12-31 this raises `OverflowError`.
   */
  function Rollover(start: Stamp, end: Stamp): (r: Option<Stamp>)
    requires ValidStamp(start) && ValidStamp(end)
    ensures r.Some? ==> ValidStamp(r.value)
    ensures Instant(end) > Instant(start) ==> r == Some(end)
    ensures Instant(end) <= Instant(start) && end.date != MaxDate ==>
              r.Some? && r.value.date == NextDay(end.date).value
              && r.value.minute == end.minute && r.value.offset == end.offset
              && Instant(r.value) == Instant(end) + 1440
    ensures Instant(end) <= Instant(start) && end.date == MaxDate ==> r.None?
  {
    if Instant(end) > Instant(start) then Some(end)
    else match NextDay(end.date)
      case None => None
      case Some(next) =>
        NextDayOrdinal(end.date);
        Some(Stamp(next, end.minute, end.offset))
  }

  /**
   * The span `_parse_event_datetime` computes: both times localised on date `d`, then the
   * rollover. Date `d` is never the last date, so the rollover cannot overflow; the end
   * always keeps the offset of time `b` on date `d`.
   */
  function SpanAsWritten(d: Date, a: int, b: int): (r: Span)
    requires ValidDate(d) && Localizable(d) && 0 <= a < 1440 && 0 <= b < 1440
    ensures r.start == Localize(d, a)
    ensures ValidStamp(r.end) && r.end.minute == b && r.end.offset == UkOffset(d, b)
    ensures Instant(Localize(d, b)) > Instant(Localize(d, a)) ==> r.end == Localize(d, b)
    ensures Instant(Localize(d, b)) <= Instant(Localize(d, a)) ==>
              r.end.date == NextDay(d).value && Instant(r.end) == Instant(Localize(d, b)) + 1440
  {
    Span(Localize(d, a), Rollover(Localize(d, a), Localize(d, b)).value)
  }

  /**
   * When the start and the end are localised with the same offset, the end is strictly
   * after the start and at most 24 hours after it: `b - a` minutes when `b > a`, and
   * `b - a` plus a whole day otherwise (equal times last 24 hours).
   */
  lemma SameOffsetDuration(d: Date, a: int, b: int)
    requires ValidDate(d) && Localizable(d) && 0 <= a < 1440 && 0 <= b < 1440
    requires UkOffset(d, a) == UkOffset(d, b)
    ensures var sp := SpanAsWritten(d, a, b);
      Instant(sp.end) - Instant(sp.start) == (if b > a then b - a else b - a + 1440)
    ensures var sp := SpanAsWritten(d, a, b);
      Instant(sp.start) < Instant(sp.end) <= Instant(sp.start) + 1440
  {
  }

  /**
   * On every date that is not a change day an event lasts `b - a` minutes when `b > a`,
   * and `b - a` plus a whole day otherwise: "11pm - 1am" lasts two hours.
   */
  lemma {:induction false} OrdinaryDayDuration(d: Date, a: int, b: int)
    requires ValidDate(d) && Localizable(d) && 0 <= a < 1440 && 0 <= b < 1440
    requires !IsChangeDay(d)
    ensures var sp := SpanAsWritten(d, a, b);
      Instant(sp.end) - Instant(sp.start) == (if b > a then b - a else b - a + 1440)
  {
    OffsetConstantOnOrdinaryDay(d, a, b);
    SameOffsetDuration(d, a, b);
  }

  // ---------------------------------------------------------------------------------------
  // The whole normaliser

  /**
   * `_parse_event_datetime` up to the formatting: the date, then the two pieces of the
   * time range (each through the noon alias and the clock parse), then the localisation
   * and the rollover. `date` is `None` when no calendar row has been seen yet
   * (`strptime(None, ...)` raises).
   */
  function EventSpan(date: Option<string>, time: string): (r: Option<Span>)
    ensures r.Some? ==> date.Some? && ParseDate(date.value).Some?
    ensures r.Some? ==> |TimeParts(time)| == 2
    ensures r.Some? ==> ParseClock(NoonAlias(TimeParts(time)[0])).Some?
                        && ParseClock(NoonAlias(TimeParts(time)[1])).Some?
    ensures r.Some? ==> Localizable(ParseDate(date.value).value)
    ensures r.Some? ==> ValidStamp(r.value.start) && ValidStamp(r.value.end)
    ensures r.Some? ==>
      r.value == SpanAsWritten(ParseDate(date.value).value,
                               ParseClock(NoonAlias(TimeParts(time)[0])).value,
                               ParseClock(NoonAlias(TimeParts(time)[1])).value)
  {
    if date.None? then None
    else match ParseDate(date.value)
      case None => None
      case Some(d) =>
        var parts := TimeParts(time);
        if |parts| != 2 then None
        else match (ParseClock(NoonAlias(parts[0])), ParseClock(NoonAlias(parts[1])))
          case (Some(a), Some(b)) => if Localizable(d) then Some(SpanAsWritten(d, a, b)) else None
          case _ => None
  }

  /** A time text without exactly one hyphen (once spaces are gone) fails the whole parse. */
  lemma {:induction false} HyphenCountDecides(date: Option<string>, time: string)
    requires Count(RemoveSpaces(time), '-') != 1
    ensures EventSpan(date, time) == None
  {
    SplitCount(RemoveSpaces(time), '-');
  }

  /**
   * A well-formed input parses: a date text that reads as `d`, and a time text whose two
   * pieces read as `a` and `b`, give the as-written span of `d`, `a` and `b`, unless `d` is
   * a date `tz.localize` overflows on.
   */
  lemma {:induction false} EventSpanOfParts(date: string, time: string, d: Date, a: int, b: int)
    requires ParseDate(date) == Some(d)
    requires |TimeParts(time)| == 2
    requires ParseClock(NoonAlias(TimeParts(time)[0])) == Some(a)
    requires ParseClock(NoonAlias(TimeParts(time)[1])) == Some(b)
    ensures EventSpan(Some(date), time) == if Localizable(d) then Some(SpanAsWritten(d, a, b)) else None
  {
  }

  /**
   * The span exists exactly when there is a date, it parses to a date `tz.localize`
   * handles, the time splits into two pieces, and both pieces parse.
   */
  lemma {:induction false} EventSpanFails(date: Option<string>, time: string)
    ensures EventSpan(date, time).None? <==>
      date.None? || ParseDate(date.value).None? || !Localizable(ParseDate(date.value).value)
      || |TimeParts(time)| != 2
      || ParseClock(NoonAlias(TimeParts(time)[0])).None?
      || ParseClock(NoonAlias(TimeParts(time)[1])).None?
  {
  }

  /** "s - e", with neither piece holding a space or a hyphen, splits into `s` and `e`. */
  lemma {:induction false} RangeParts(s: string, e: string)
    requires ' ' !in s && ' ' !in e && '-' !in s && '-' !in e
    ensures TimeParts(s + " - " + e) == [s, e]
  {
    assert s + " - " + e == s + (" " + ("-" + (" " + e)));
    RangeWithoutSpaces(s, e);
    SplitJoin([s, e], '-');
  }

  lemma {:induction false} RangeWithoutSpaces(s: string, e: string)
    requires ' ' !in s && ' ' !in e
    ensures RemoveSpaces(s + (" " + ("-" + (" " + e)))) == Join([s, e], '-')
  {
    RemoveSpacesAppend(s, " " + ("-" + (" " + e)));
    RemoveSpacesAppend(" ", "-" + (" " + e));
    RemoveSpacesAppend("-", " " + e);
    RemoveSpacesAppend(" ", e);
  }

  /** A piece that starts with a digit is never the noon alias. */
  lemma {:induction false} DigitFirstIsNotNoon(c: string)
    requires c != [] && IsDigit(c[0])
    ensures NoonAlias(c) == c
  {
  }

  /** A range of two clock texts, neither holding a space or hyphen, splits into their times. */
  lemma {:induction false} ClockRangeOfTexts(s: string, e: string, a: int, b: int)
    requires ' ' !in s && ' ' !in e && '-' !in s && '-' !in e
    requires s != [] && IsDigit(s[0]) && e != [] && IsDigit(e[0])
    requires ParseClock(s) == Some(a) && ParseClock(e) == Some(b)
    ensures |TimeParts(s + " - " + e)| == 2
    ensures ParseClock(NoonAlias(TimeParts(s + " - " + e)[0])) == Some(a)
    ensures ParseClock(NoonAlias(TimeParts(s + " - " + e)[1])) == Some(b)
  {
    RangeParts(s, e);
    DigitFirstIsNotNoon(s);
    DigitFirstIsNotNoon(e);
  }

  /**
   * A range of two clock texts on a date text reads as the span of their times: with the
   * date and the two clocks the site writes, "Monday 03 June 2024" and "7pm - 11:30pm" read
   * as that date from 19:00 to 23:30 (see `ParseDateText`, `ParseHourText`,
   * `ParseMinuteText`, `HourTextShape` and `MinuteTextShape`).
   */
  lemma {:induction false} EventSpanOfTexts(date: string, s: string, e: string, d: Date, a: int, b: int)
    requires ' ' !in s && ' ' !in e && '-' !in s && '-' !in e
    requires s != [] && IsDigit(s[0]) && e != [] && IsDigit(e[0])
    requires ParseDate(date) == Some(d) && ParseClock(s) == Some(a) && ParseClock(e) == Some(b)
    ensures EventSpan(Some(date), s + " - " + e)
            == if Localizable(d) then Some(SpanAsWritten(d, a, b)) else None
  {
    ClockRangeOfTexts(s, e, a, b);
    EventSpanOfParts(date, s + " - " + e, d, a, b);
  }

  /** Clock texts start with a digit and hold neither spaces nor hyphens. */
  lemma {:induction false} HourTextShape(hour: nat)
    requires hour < 24
    ensures HourText(hour) != [] && IsDigit(HourText(hour)[0])
    ensures ' ' !in HourText(hour) && '-' !in HourText(hour)
  {
    var hd := HourDigits(Hour12(hour));
    assert forall i :: 0 <= i < |hd| ==> IsDigit(hd[i]);
  }

  lemma {:induction false} MinuteTextShape(hour: nat, minute: nat)
    requires hour < 24 && minute < 60
    ensures MinuteText(hour, minute) != [] && IsDigit(MinuteText(hour, minute)[0])
    ensures ' ' !in MinuteText(hour, minute) && '-' !in MinuteText(hour, minute)
  {
    var hd := HourDigits(Hour12(hour));
    assert forall i :: 0 <= i < |hd| ==> IsDigit(hd[i]);
    var md := Pad(minute, 2);
    assert forall i :: 0 <= i < |md| ==> IsDigit(md[i]);
  }

  // ---------------------------------------------------------------------------------------
  // Formatting

  /** "%Y-%m-%d": the year, month and day, zero-padded and joined by hyphens. */
  function DateField(d: Date): (r: string)
    requires ValidDate(d)
    ensures |r| == 10 && r[4] == '-' && r[7] == '-'
    ensures AllDigits(r[0..4]) && NatOf(r[0..4]) == d.year
    ensures AllDigits(r[5..7]) && NatOf(r[5..7]) == d.month
    ensures AllDigits(r[8..10]) && NatOf(r[8..10]) == d.day
  {
    var y, m, dd := Pad(d.year, 4), Pad(d.month, 2), Pad(d.day, 2);
    var r := y + "-" + m + "-" + dd;
    assert r[0..4] == y && r[5..7] == m && r[8..10] == dd;
    r
  }

  /** "%H:%M:%S": the hour and minute of a minute of the day, and zero seconds. */
  function ClockField(minute: int): (r: string)
    requires 0 <= minute < 1440
    ensures |r| == 8 && r[2] == ':' && r[5] == ':' && r[6..8] == "00"
    ensures AllDigits(r[0..2]) && AllDigits(r[3..5])
    ensures NatOf(r[0..2]) < 24 && NatOf(r[3..5]) < 60
    ensures NatOf(r[0..2]) * 60 + NatOf(r[3..5]) == minute
  {
    var hh, mm := Pad(minute / 60, 2), Pad(minute % 60, 2);
    var r := hh + ":" + mm + ":" + "00";
    assert r[0..2] == hh && r[3..5] == mm && r[6..8] == "00";
    r
  }

  /** "%z": a sign, then the hours and minutes of the offset's size. */
  function ZoneField(offset: int): (r: string)
    requires -1440 < offset < 1440
    ensures |r| == 5 && r[0] == (if offset < 0 then '-' else '+')
    ensures AllDigits(r[1..3]) && AllDigits(r[3..5]) && NatOf(r[3..5]) < 60
    ensures NatOf(r[1..3]) * 60 + NatOf(r[3..5]) == (if offset < 0 then -offset else offset)
  {
    var size := if offset < 0 then -offset else offset;
    var hh, mm := Pad(size / 60, 2), Pad(size % 60, 2);
    var r := [if offset < 0 then '-' else '+'] + hh + mm;
    assert r[1..3] == hh && r[3..5] == mm;
    r
  }

  /** `strftime("%Y-%m-%d %H:%M:%S%z")` of a localised stamp. */
  function FormatStamp(s: Stamp): string
    requires ValidStamp(s)
  {
    DateField(s.date) + " " + ClockField(s.minute) + ZoneField(s.offset)
  }

  /** The formatted stamp is 24 characters: the date, a space, the clock, then the zone. */
  lemma FormatStampFields(s: Stamp)
    requires ValidStamp(s)
    ensures var r := FormatStamp(s);
      |r| == 24 && r[10] == ' ' && r[0..10] == DateField(s.date) && r[11..19] == ClockField(s.minute)
      && r[19..24] == ZoneField(s.offset)
  {
    var r := FormatStamp(s);
    assert r[0..10] == DateField(s.date);
    assert r[11..19] == ClockField(s.minute);
    assert r[19..24] == ZoneField(s.offset);
  }

  /** The two strings `_parse_event_datetime` returns. */
  datatype Times = Times(startTime: string, endTime: string)

  /** `_parse_event_datetime`; `None` stands for the exception it raises on malformed input. */
  function ParseEventDateTime(date: Option<string>, time: string): (r: Option<Times>)
    ensures r.Some? ==> |r.value.startTime| == 24 && |r.value.endTime| == 24
  {
    match EventSpan(date, time)
    case None => None
    case Some(sp) =>
      FormatStampFields(sp.start);
      FormatStampFields(sp.end);
      Some(Times(FormatStamp(sp.start), FormatStamp(sp.end)))
  }

  /**
   * `_parse_event_datetime` on a date text reading as `d` and a time text whose pieces
   * read as `a` and `b`: the two formatted stamps of the as-written span, or the
   * exception when `d` is a date `tz.localize` overflows on.
   */
  lemma {:induction false} ParseEventDateTimeOfParts(date: string, time: string, d: Date, a: int, b: int)
    requires ParseDate(date) == Some(d)
    requires |TimeParts(time)| == 2
    requires ParseClock(NoonAlias(TimeParts(time)[0])) == Some(a)
    requires ParseClock(NoonAlias(TimeParts(time)[1])) == Some(b)
    ensures ParseEventDateTime(Some(date), time)
            == if Localizable(d)
               then Some(Times(FormatStamp(SpanAsWritten(d, a, b).start), FormatStamp(SpanAsWritten(d, a, b).end)))
               else None
  {
    EventSpanOfParts(date, time, d, a, b);
  }

  /**
   * `_parse_event_datetime` raises exactly when there is no date, the date does not parse
   * or is one `tz.localize` overflows on, the time does not split into two pieces, or a
   * piece does not parse.
   */
  lemma {:induction false} ParseEventDateTimeFails(date: Option<string>, time: string)
    ensures ParseEventDateTime(date, time).None? <==>
      date.None? || ParseDate(date.value).None? || !Localizable(ParseDate(date.value).value)
      || |TimeParts(time)| != 2
      || ParseClock(NoonAlias(TimeParts(time)[0])).None?
      || ParseClock(NoonAlias(TimeParts(time)[1])).None?
  {
    EventSpanFails(date, time);
  }

  /**
   * The two strings for a range of two clock texts on a date text: the formatted start
   * and end of the as-written span of their date and times.
   */
  lemma {:induction false} ParseEventDateTimeOfTexts(date: string, s: string, e: string, d: Date, a: int, b: int)
    requires ' ' !in s && ' ' !in e && '-' !in s && '-' !in e
    requires s != [] && IsDigit(s[0]) && e != [] && IsDigit(e[0])
    requires ParseDate(date) == Some(d) && ParseClock(s) == Some(a) && ParseClock(e) == Some(b)
    ensures ParseEventDateTime(Some(date), s + " - " + e)
            == if Localizable(d)
               then Some(Times(FormatStamp(SpanAsWritten(d, a, b).start), FormatStamp(SpanAsWritten(d, a, b).end)))
               else None
  {
    EventSpanOfTexts(date, s, e, d, a, b);
  }
}

=== FILE: event_details.dfy ===
/**
 * `_get_event_details`: the detail page of one listing item becomes an event. The page is
 * abstracted to what the extractor reads from it: the title, the page-level description,
 * and the "event-details" rows, each a set of icon markers and the row's text. A row is
 * classified by the first marker it carries, in the order calendar, clock, map-marker,
 * sitemap, e-details-txt, and overwrites the matching field of the record; a clock row runs
 * the date/time normaliser at once, with whatever date has been read so far.
 */
module EventDetails {
  import opened Wrappers
  import opened Text
  import opened DateTimeParse

  /** The icon classes a detail row is classified by, in the order they are tested. */
  datatype Marker = CalendarIcon | ClockIcon | MapMarkerIcon | SitemapIcon | DetailsText

  /** Where a marker sits in the order of the `if`/`elif` chain. */
  function Rank(m: Marker): (n: nat)
    ensures n < 5
  {
    match m
    case CalendarIcon => 0
    case ClockIcon => 1
    case MapMarkerIcon => 2
    case SitemapIcon => 3
    case DetailsText => 4
  }

  /** One "event-details" element: the markers found inside it and its text. */
  datatype Row = Row(markers: set<Marker>, text: string)

  /**
   * A detail page: the `h1` text of the "text-container" (`None` when the container or the
   * heading is missing), the text of the first "e-details-txt" element (`None` when there is
   * none), and the "event-details" rows of the container, in document order.
   */
  datatype Page = Page(title: Option<string>, description: Option<string>, rows: seq<Row>)

  /** A listing item: the `href` of its first link (`None` when it has none) and its page. */
  datatype Item = Item(href: Option<string>, page: Page)

  /** `details_dict`. */
  datatype Details = Details(
    id: string, title: string, date: Option<string>, time: Option<string>,
    start: Option<string>, end: Option<string>, location: Option<string>,
    organisation: Option<string>, description: string)

  /** The event built from the record (`ics.Event` with these six attributes). */
  datatype Event = Event(
    name: string, begin: Option<string>, end: Option<string>, location: Option<string>,
    organizer: Option<string>, description: string)

  /**
   * The date/time normaliser a clock row goes through: the date read so far and the row's
   * text, to the two formatted stamps, or `None` when it raises. The scraper's is
   * `DateTimeParse.ParseEventDateTime`; what follows about the row loop holds for any.
   */
  type Normaliser = (Option<string>, string) -> Option<Times>

  /** A set of markers holding none of the five is empty. */
  lemma OnlyFiveMarkers(s: set<Marker>)
    requires CalendarIcon !in s && ClockIcon !in s && MapMarkerIcon !in s
    requires SitemapIcon !in s && DetailsText !in s
    ensures s == {}
  {
    if s != {} {
      var m :| m in s;
      match m
      case CalendarIcon => assert false;
      case ClockIcon => assert false;
      case MapMarkerIcon => assert false;
      case SitemapIcon => assert false;
      case DetailsText => assert false;
    }
  }

  /** The marker that decides a row: the first of the chain the row carries. */
  function Classify(row: Row): (r: Option<Marker>)
    ensures r.None? <==> row.markers == {}
    ensures r.Some? ==> r.value in row.markers
    ensures r.Some? ==> forall m :: m in row.markers ==> Rank(r.value) <= Rank(m)
  {
    if CalendarIcon in row.markers then Some(CalendarIcon)
    else if ClockIcon in row.markers then Some(ClockIcon)
    else if MapMarkerIcon in row.markers then Some(MapMarkerIcon)
    else if SitemapIcon in row.markers then Some(SitemapIcon)
    else if DetailsText in row.markers then Some(DetailsText)
    else OnlyFiveMarkers(row.markers); None
  }

  /** The field of the record a marker's rows write their stripped text to. */
  function Field(d: Details, m: Marker): Option<string> {
    match m
    case CalendarIcon => d.date
    case ClockIcon => d.time
    case MapMarkerIcon => d.location
    case SitemapIcon => d.organisation
    case DetailsText => Some(d.description)
  }

  /** The record with `text` written to the field of marker `m`, and nothing else changed. */
  function Put(d: Details, m: Marker, text: string): (r: Details)
    ensures Field(r, m) == Some(text)
    ensures forall k :: k != m ==> Field(r, k) == Field(d, k)
    ensures r.id == d.id && r.title == d.title && r.start == d.start && r.end == d.end
  {
    match m
    case CalendarIcon => d.(date := Some(text))
    case ClockIcon => d.(time := Some(text))
    case MapMarkerIcon => d.(location := Some(text))
    case SitemapIcon => d.(organisation := Some(text))
    case DetailsText => d.(description := text)
  }

  /** One pass of the loop body; `None` when the date/time normaliser raises. */
  function Step(d: Details, row: Row, parse: Normaliser): Option<Details> {
    var text := Strip(row.text);
    match Classify(row)
    case None => Some(d)
    case Some(ClockIcon) =>
      (match parse(d.date, text)
       case None => None
       case Some(t) => Some(Put(d, ClockIcon, text).(start := Some(t.startTime), end := Some(t.endTime))))
    case Some(m) => Some(Put(d, m, text))
  }

  /** The record after the loop has run over `rows`; `None` when some pass raised. */
  function Scan(d: Details, rows: seq<Row>, parse: Normaliser): Option<Details> {
    if rows == [] then Some(d)
    else match Scan(d, rows[..|rows| - 1], parse)
      case None => None
      case Some(e) => Step(e, rows[|rows| - 1], parse)
  }

  /** The record before the loop: id, title and page description, everything else unset. */
  function Initial(id: string, title: string, description: string): (d: Details)
    ensures d.date.None? && d.time.None? && d.start.None? && d.end.None?
    ensures d.location.None? && d.organisation.None?
    ensures d.id == id && d.title == title && d.description == description
  {
    Details(id, title, None, None, None, None, None, None, description)
  }

  function EventOf(d: Details): (e: Event)
    ensures e.name == d.title && e.begin == d.start && e.end == d.end
    ensures e.location == d.location && e.organizer == d.organisation
    ensures e.description == d.description
  {
    Event(d.title, d.start, d.end, d.location, d.organisation, d.description)
  }

  /**
   * The event a listing item yields, or `None` when `_get_event_details` raises: no link,
   * no title, no page description, or a clock row the normaliser rejects.
   */
  function ItemEvent(item: Item): (r: Option<Event>)
    ensures r.Some? ==> item.href.Some? && item.page.title.Some? && item.page.description.Some?
  {
    if item.href.None? || item.page.title.None? || item.page.description.None? then None
    else
      var init := Initial(item.href.value, item.page.title.value, Strip(item.page.description.value));
      match Scan(init, item.page.rows, ParseEventDateTime)
      case None => None
      case Some(d) => Some(EventOf(d))
  }

  /** The event an item yields is named by the page heading, whatever rows the page has. */
  lemma {:induction false} ItemEventName(item: Item)
    ensures ItemEvent(item).Some? ==> ItemEvent(item).value.name == item.page.title.value
  {
    if ItemEvent(item).Some? {
      var init := Initial(item.href.value, item.page.title.value, Strip(item.page.description.value));
      ScanKeepsIdAndTitle(init, item.page.rows, ParseEventDateTime);
    }
  }

  /**
   * `_get_event_details` with the page already fetched and parsed: the record is built, the
   * rows are scanned in order and each overwrites its field, and the event is built from the
   * record. The result is the event `ItemEvent` describes, failure included.
   */
  method GetEventDetails(item: Item) returns (r: Option<Event>)
    ensures r == ItemEvent(item)
  {
    if item.href.None? || item.page.title.None? || item.page.description.None? {
      return None;
    }
    var rows := item.page.rows;
    var init := Initial(item.href.value, item.page.title.value, Strip(item.page.description.value));
    var details := init;
    var i := 0;
    while i < |rows|
      invariant 0 <= i <= |rows|
      invariant Scan(init, rows[..i], ParseEventDateTime) == Some(details)
    {
      ScanExtend(init, rows, i, ParseEventDateTime);
      var next := ReadRow(details, rows[i]);
      if next.None? {
        ScanFailureSticks(init, rows, i + 1, ParseEventDateTime);
        return None;
      }
      details := next.value;
      i := i + 1;
    }
    assert rows[..i] == rows;
    r := Some(EventOf(details));
  }

  /**
   * The body of the row loop: the row's marker decides which field its stripped text goes
   * to; a clock row is parsed against the date seen so far, and `None` is the exception
   * that parse raises.
   */
  method ReadRow(details: Details, row: Row) returns (next: Option<Details>)
    ensures next == Step(details, row, ParseEventDateTime)
  {
    var text := Strip(row.text);
    var marker := Classify(row);
    next := Some(details);
    if marker == Some(CalendarIcon) {
      next := Some(details.(date := Some(text)));
    } else if marker == Some(ClockIcon) {
      var parsed := ParseEventDateTime(details.date, text);
      if parsed.None? {
        return None;
      }
      next := Some(details.(time := Some(text), start := Some(parsed.value.startTime),
                            end := Some(parsed.value.endTime)));
    } else if marker == Some(MapMarkerIcon) {
      next := Some(details.(location := Some(text)));
    } else if marker == Some(SitemapIcon) {
      next := Some(details.(organisation := Some(text)));
    } else if marker == Some(DetailsText) {
      next := Some(details.(description := text));
    }
  }

  /** Scanning one more row is one more pass of the loop body. */
  lemma ScanExtend(d: Details, rows: seq<Row>, i: nat, parse: Normaliser)
    requires i < |rows|
    ensures Scan(d, rows[..i + 1], parse) ==
      (match Scan(d, rows[..i], parse) case None => None case Some(e) => Step(e, rows[i], parse))
  {
    assert rows[..i + 1][..i] == rows[..i];
  }

  /** Once a pass has raised, the whole scan fails whatever rows follow. */
  lemma {:induction false} ScanFailureSticks(d: Details, rows: seq<Row>, n: nat, parse: Normaliser)
    requires n <= |rows| && Scan(d, rows[..n], parse) == None
    ensures Scan(d, rows, parse) == None
    decreases |rows| - n
  {
    if n < |rows| {
      assert rows[..n + 1][..n] == rows[..n];
      ScanFailureSticks(d, rows, n + 1, parse);
    } else {
      assert rows[..n] == rows;
    }
  }

  /** A row without any marker leaves the record exactly as it was. */
  lemma UnmarkedRowChangesNothing(d: Details, row: Row, parse: Normaliser)
    requires row.markers == {}
    ensures Step(d, row, parse) == Some(d)
  {
  }

  /**
   * A row changes at most one field, the one its deciding marker names (a clock row also
   * sets the start and the end), and writes the row's stripped text there.
   */
  lemma StepWritesOneField(d: Details, row: Row, m: Marker, e: Details, parse: Normaliser)
    requires Classify(row) == Some(m) && Step(d, row, parse) == Some(e)
    ensures Field(e, m) == Some(Strip(row.text))
    ensures forall k :: k != m ==> Field(e, k) == Field(d, k)
    ensures e.id == d.id && e.title == d.title
    ensures m != ClockIcon ==> e.start == d.start && e.end == d.end
  {
    var p := Put(d, m, Strip(row.text));
    assert forall k :: Field(e, k) == Field(p, k);
  }

  /** No pass of the loop touches the id or the title: the scan keeps both. */
  lemma {:induction false} ScanKeepsIdAndTitle(d: Details, rows: seq<Row>, parse: Normaliser)
    requires Scan(d, rows, parse).Some?
    ensures Scan(d, rows, parse).value.id == d.id
    ensures Scan(d, rows, parse).value.title == d.title
  {
    if rows != [] {
      var n := |rows| - 1;
      ScanKeepsIdAndTitle(d, rows[..n], parse);
      match Classify(rows[n])
      case None =>
      case Some(m) =>
        StepWritesOneField(Scan(d, rows[..n], parse).value, rows[n], m, Scan(d, rows, parse).value, parse);
    }
  }

  /** The index of the last row decided by marker `m`. */
  function LastOfKind(rows: seq<Row>, m: Marker): (r: Option<nat>)
    ensures r.Some? ==> r.value < |rows| && Classify(rows[r.value]) == Some(m)
    ensures r.Some? ==> forall j :: r.value < j < |rows| ==> Classify(rows[j]) != Some(m)
    ensures r.None? ==> forall j :: 0 <= j < |rows| ==> Classify(rows[j]) != Some(m)
  {
    if rows == [] then None
    else if Classify(rows[|rows| - 1]) == Some(m) then Some(|rows| - 1)
    else LastOfKind(rows[..|rows| - 1], m)
  }

  /**
   * After the scan, each field holds the stripped text of the last row of its kind, or its
   * value before the scan when there is no such row: a later row overwrites an earlier one,
   * rows of other kinds and unmarked rows never touch it, and the page description is
   * replaced only by an e-details-txt row.
   */
  lemma {:induction false} ScanFieldIsLastRow(d: Details, rows: seq<Row>, m: Marker, parse: Normaliser)
    requires Scan(d, rows, parse).Some?
    ensures Field(Scan(d, rows, parse).value, m) ==
      (match LastOfKind(rows, m)
       case None => Field(d, m)
       case Some(i) => Some(Strip(rows[i].text)))
  {
    if rows != [] {
      var n := |rows| - 1;
      var init := rows[..n];
      ScanFieldIsLastRow(d, init, m, parse);
      LastOfKindExtend(rows, m);
      FieldAfterStep(Scan(d, init, parse).value, rows[n], m, Scan(d, rows, parse).value, parse);
    }
  }

  /** One more row is the last of its kind, and leaves the last row of every other kind. */
  lemma LastOfKindExtend(rows: seq<Row>, m: Marker)
    requires rows != []
    ensures var n := |rows| - 1;
      LastOfKind(rows, m) == (if Classify(rows[n]) == Some(m) then Some(n) else LastOfKind(rows[..n], m))
    ensures var n := |rows| - 1;
      forall i :: 0 <= i < n ==> rows[..n][i] == rows[i]
  {
  }

  /** After one pass, a field holds the row's text when the row is of its kind, else what it held. */
  lemma FieldAfterStep(d: Details, row: Row, m: Marker, e: Details, parse: Normaliser)
    requires Step(d, row, parse) == Some(e)
    ensures Field(e, m) == (if Classify(row) == Some(m) then Some(Strip(row.text)) else Field(d, m))
  {
    match Classify(row)
    case None =>
    case Some(k) => StepWritesOneField(d, row, k, e, parse);
  }

  /**
   * The start and the end come from the last clock row, parsed with the date read before
   * it; with no clock row they keep their values from before the scan.
   */
  lemma {:induction false} ScanTimesFromLastClockRow(d: Details, rows: seq<Row>, parse: Normaliser)
    requires Scan(d, rows, parse).Some?
    ensures LastOfKind(rows, ClockIcon).None? ==>
      Scan(d, rows, parse).value.start == d.start && Scan(d, rows, parse).value.end == d.end
    ensures LastOfKind(rows, ClockIcon).Some? ==>
      var i := LastOfKind(rows, ClockIcon).value;
      Scan(d, rows[..i], parse).Some?
      && var t := parse(Scan(d, rows[..i], parse).value.date, Strip(rows[i].text));
      t.Some? && Scan(d, rows, parse).value.start == Some(t.value.startTime)
      && Scan(d, rows, parse).value.end == Some(t.value.endTime)
  {
    if rows != [] {
      var n := |rows| - 1;
      var init := rows[..n];
      var before := Scan(d, init, parse).value;
      var after := Scan(d, rows, parse).value;
      assert Step(before, rows[n], parse) == Some(after);
      ScanTimesFromLastClockRow(d, init, parse);
      LastOfKindExtend(rows, ClockIcon);
      TimesAfterStep(before, rows[n], after, parse);
      if Classify(rows[n]) != Some(ClockIcon) && LastOfKind(rows, ClockIcon).Some? {
        var i := LastOfKind(rows, ClockIcon).value;
        assert rows[..i] == init[..i];
      }
    }
  }

  /** One pass sets the start and the end only on a clock row, from that row's parse. */
  lemma TimesAfterStep(d: Details, row: Row, e: Details, parse: Normaliser)
    requires Step(d, row, parse) == Some(e)
    ensures Classify(row) != Some(ClockIcon) ==> e.start == d.start && e.end == d.end
    ensures Classify(row) == Some(ClockIcon) ==>
      var t := parse(d.date, Strip(row.text));
      t.Some? && e.start == Some(t.value.startTime) && e.end == Some(t.value.endTime)
  {
  }

  /** A pass raises only on a clock row whose text the normaliser rejects. */
  lemma StepFails(d: Details, row: Row, parse: Normaliser)
    ensures Step(d, row, parse).None? <==>
      Classify(row) == Some(ClockIcon) && parse(d.date, Strip(row.text)).None?
  {
  }

  /** The pass over row `i` raises: a clock row whose text the normaliser rejects. */
  predicate FailsAt(d: Details, rows: seq<Row>, i: int, parse: Normaliser) {
    0 <= i < |rows| && Classify(rows[i]) == Some(ClockIcon) && Scan(d, rows[..i], parse).Some?
    && parse(Scan(d, rows[..i], parse).value.date, Strip(rows[i].text)).None?
  }

  /** A clock row whose text the normaliser rejects fails the whole scan. */
  lemma {:induction false} RejectedClockRowFails(d: Details, rows: seq<Row>, i: int, parse: Normaliser)
    requires FailsAt(d, rows, i, parse)
    ensures Scan(d, rows, parse) == None
  {
    ScanExtend(d, rows, i, parse);
    StepFails(Scan(d, rows[..i], parse).value, rows[i], parse);
    ScanFailureSticks(d, rows, i + 1, parse);
  }

  /** A scan that fails has failed at a clock row whose text the normaliser rejected. */
  lemma {:induction false} ScanFailsOnlyAtClockRow(d: Details, rows: seq<Row>, parse: Normaliser)
    requires Scan(d, rows, parse).None?
    ensures exists i :: FailsAt(d, rows, i, parse)
  {
    var n := |rows| - 1;
    var init := rows[..n];
    if Scan(d, init, parse).None? {
      ScanFailsOnlyAtClockRow(d, init, parse);
      var i :| FailsAt(d, init, i, parse);
      assert init[..i] == rows[..i];
      assert FailsAt(d, rows, i, parse);
    } else {
      StepFails(Scan(d, init, parse).value, rows[n], parse);
      assert FailsAt(d, rows, n, parse);
    }
  }

  /**
   * A clock row with no calendar row before it fails the event: the normaliser is handed
   * no date, and a normaliser that raises on no date fails the scan.
   */
  lemma {:induction false} ClockBeforeCalendarFails(d: Details, rows: seq<Row>, i: nat, parse: Normaliser)
    requires d.date.None? && i < |rows| && Classify(rows[i]) == Some(ClockIcon)
    requires forall j :: 0 <= j < i ==> Classify(rows[j]) != Some(CalendarIcon)
    requires parse(None, Strip(rows[i].text)).None?
    ensures Scan(d, rows, parse) == None
  {
    var prefix := rows[..i + 1];
    assert prefix[..i] == rows[..i];
    if Scan(d, rows[..i], parse).Some? {
      ScanFieldIsLastRow(d, rows[..i], CalendarIcon, parse);
      assert forall j :: 0 <= j < i ==> rows[..i][j] == rows[j];
    }
    ScanFailureSticks(d, rows, i + 1, parse);
  }

  /** The scraper's normaliser raises on a missing date, so such an item yields nothing. */
  lemma ItemClockBeforeCalendarFails(item: Item, i: nat)
    requires i < |item.page.rows| && Classify(item.page.rows[i]) == Some(ClockIcon)
    requires forall j :: 0 <= j < i ==> Classify(item.page.rows[j]) != Some(CalendarIcon)
    ensures ItemEvent(item) == None
  {
    if item.href.Some? && item.page.title.Some? && item.page.description.Some? {
      var init := Initial(item.href.value, item.page.title.value, Strip(item.page.description.value));
      assert ParseEventDateTime(None, Strip(item.page.rows[i].text)) == None;
      ClockBeforeCalendarFails(init, item.page.rows, i, ParseEventDateTime);
    }
  }

  /**
   * A page without clock rows gives an event with no begin and no end, and a page without an
   * e-details-txt row keeps the page description.
   */
  lemma {:induction false} ItemWithoutClockRow(item: Item)
    requires ItemEvent(item).Some?
    ensures LastOfKind(item.page.rows, ClockIcon).None? ==>
      ItemEvent(item).value.begin.None? && ItemEvent(item).value.end.None?
    ensures LastOfKind(item.page.rows, DetailsText).None? ==>
      ItemEvent(item).value.description == Strip(item.page.description.value)
  {
    var init := Initial(item.href.value, item.page.title.value, Strip(item.page.description.value));
    ScanTimesFromLastClockRow(init, item.page.rows, ParseEventDateTime);
    ScanFieldIsLastRow(init, item.page.rows, DetailsText, ParseEventDateTime);
  }
}

=== FILE: rollover_finding.dfy ===
/**
 * The rollover of `_parse_event_datetime` as written: when the localised end is not after
 * the localised start, one day is added to the end datetime, which keeps the offset the end
 * was first localised with. On the last Sunday of October a time after midnight is first
 * localised on the change day itself, still in summer time, and keeps +01:00 on the next
 * day, where the clocks already show GMT: an event from 23:30 to 00:15 then ends before it
 * starts. The pipeline (`DateTimeParse.EventSpan` and everything built on it) follows the
 * code as written, `DateTimeParse.SpanAsWritten`; `IntendedSpan` below is the corrected
 * definition, which localises the end on the date it falls on.
 */
module RolloverFinding {
  import opened Wrappers
  import opened Calendar
  import opened DateTimeParse

  /**
   * The intended span: the end is localised on date `d` when it follows the start there,
   * and otherwise localised afresh on the next date, with that date's offset. Localising on
   * the last date overflows, as `tz.localize` does.
   */
  function IntendedSpan(d: Date, a: int, b: int): (r: Option<Span>)
    requires ValidDate(d) && Localizable(d) && 0 <= a < 1440 && 0 <= b < 1440
    ensures r.Some? ==> r.value.start == Localize(d, a)
    ensures r.Some? ==> ValidStamp(r.value.end) && r.value.end.minute == b
    ensures r.Some? ==> r.value.end.offset == UkOffset(r.value.end.date, b)
  {
    var start, end := Localize(d, a), Localize(d, b);
    if Instant(end) > Instant(start) then Some(Span(start, end))
    else
      var next := NextDay(d).value;
      if Localizable(next) then Some(Span(start, Localize(next, b))) else None
  }

  /** The intended span fails only when the end must be localised on the last date. */
  lemma {:induction false} IntendedSpanFails(d: Date, a: int, b: int)
    requires ValidDate(d) && Localizable(d) && 0 <= a < 1440 && 0 <= b < 1440
    ensures IntendedSpan(d, a, b).None? <==>
      NextDay(d).value == MaxDate && Instant(Localize(d, b)) <= Instant(Localize(d, a))
  {
  }

  /**
   * With the correction the end of an event always follows its start, on every date
   * including the two clock-change days, and by at most a day and an hour.
   */
  lemma {:induction false} EndFollowsStart(d: Date, a: int, b: int)
    requires ValidDate(d) && Localizable(d) && 0 <= a < 1440 && 0 <= b < 1440
    ensures IntendedSpan(d, a, b).Some? ==> var sp := IntendedSpan(d, a, b).value;
      Instant(sp.start) < Instant(sp.end) <= Instant(sp.start) + 1500
  {
    var start, end := Localize(d, a), Localize(d, b);
    if Instant(end) <= Instant(start) {
      NextDayOrdinal(d);
      if a >= 120 && b < 60 {
        OffsetAcrossMidnight(d, a, b);
      }
    }
  }

  /**
   * In any year, on the day the clocks go back, a range that starts at 23:00 or later and
   * ends before 01:00 "the next day", `b + 1380 <= a`, is given an end that is not after its
   * start: strictly before it unless `a` is exactly `b + 1380`.
   */
  lemma {:induction false} AutumnRolloverGoesBackwards(y: int, a: int, b: int)
    requires 1 <= y <= 9999 && 0 <= b < 60 && b + 1380 <= a < 1440
    ensures Localizable(AutumnChange(y))
    ensures var sp := SpanAsWritten(AutumnChange(y), a, b);
      Instant(sp.end) == Instant(sp.start) + (b + 1380 - a)
  {
    OffsetOnChangeDays(y, a);
    OffsetOnChangeDays(y, b);
  }

  /**
   * The input that shows it: "Sunday 27 October 2024" with "11:30pm - 12:15am". The start
   * is 23:30 GMT; the end written is 2024-10-28 00:15 +01:00, which is 23:15 GMT on the 27th,
   * where the intended end is 00:15 GMT on the 28th.
   */
  lemma AutumnRollover2024()
    ensures var sp := SpanAsWritten(Date(2024, 10, 27), 1410, 15);
      sp.start == Stamp(Date(2024, 10, 27), 1410, 0) && sp.end == Stamp(Date(2024, 10, 28), 15, 60)
      && Instant(sp.end) == Instant(sp.start) - 15
    ensures var sp := IntendedSpan(Date(2024, 10, 27), 1410, 15);
      sp.Some? && sp.value.end == Stamp(Date(2024, 10, 28), 15, 0)
      && Instant(sp.value.end) == Instant(sp.value.start) + 45
  {
    AutumnChange2024();
    var d := Date(2024, 10, 27);
    AutumnRolloverGoesBackwards(2024, 1410, 15);
    OffsetOnChangeDays(2024, 1410);
    OffsetOnChangeDays(2024, 15);
    NextDayOrdinal(d);
    assert NextDay(d) == Some(Date(2024, 10, 28));
  }

  /** In 2024 the clocks went back on Sunday 27 October. */
  lemma AutumnChange2024()
    ensures AutumnChange(2024) == Date(2024, 10, 27)
  {
    assert Ordinal(Date(2024, 10, 31)) == 739190;
  }

  /**
   * The code as written and the intended span agree whenever the rollover does not cross
   * a change of offset: when no rollover is needed, and on dates where neither the date nor
   * the next one is a change day.
   */
  lemma {:induction false} AsWrittenAgreesAwayFromChanges(d: Date, a: int, b: int)
    requires ValidDate(d) && Localizable(d) && 0 <= a < 1440 && 0 <= b < 1440
    requires Instant(Localize(d, b)) > Instant(Localize(d, a))
      || (!IsChangeDay(d) && !IsChangeDay(NextDay(d).value) && Localizable(NextDay(d).value))
    ensures IntendedSpan(d, a, b) == Some(SpanAsWritten(d, a, b))
  {
    if Instant(Localize(d, b)) <= Instant(Localize(d, a)) {
      OffsetAcrossOrdinaryDays(d, b, b);
    }
  }
}

=== FILE: scraper.dfy ===
/**
 * `SUEventScraper`: the batch loop of `scrape_current_events` over the items of the last
 * event-list container of the index page, and `get_events`. Fetching the index page and
 * parsing it are abstracted: the method receives the item lists of the page's
 * "msl_eventlist" containers, in document order.
 */
module Scraper {
  import opened Wrappers
  import opened EventDetails

  /** What processing each item gives: its event, or `None` when it raised. */
  function Outcomes(items: seq<Item>): (r: seq<Option<Event>>)
    ensures |r| == |items|
  {
    seq(|items|, i requires 0 <= i < |items| => ItemEvent(items[i]))
  }

  /** The outcome of item `i` is what processing that item gives. */
  lemma OutcomeOf(items: seq<Item>, i: nat)
    requires i < |items|
    ensures Outcomes(items)[i] == ItemEvent(items[i])
  {
  }

  /** The events of the outcomes that succeeded, in order. */
  function Kept(outcomes: seq<Option<Event>>): (r: seq<Event>)
    ensures |r| <= |outcomes|
  {
    if outcomes == [] then []
    else
      var n := |outcomes| - 1;
      Kept(outcomes[..n]) + (match outcomes[n] case None => [] case Some(e) => [e])
  }

  /**
   * Whether the batch runs to the end: a failing item is caught and skipped, but the handler
   * looks up the item's link again to report it, so an item without a link raises out of
   * the handler and ends the batch.
   */
  predicate Completes(items: seq<Item>) {
    forall i :: 0 <= i < |items| ==> items[i].href.Some?
  }

  class SUEventScraper {
    var eventPageUrl: string
    var eventsList: seq<Event>

    constructor()
      ensures eventPageUrl == "https://www.cambridgesu.co.uk/whatson/" && eventsList == []
    {
      eventPageUrl := "https://www.cambridgesu.co.uk/whatson/";
      eventsList := [];
    }

    /**
     * `scrape_current_events`: the last container's items are processed in order, each
     * failure is skipped, and the list of successes replaces `eventsList` once the loop is
     * done. The result is `false` when the method raises: there is no container, or an item
     * without a link failed; `eventsList` is then left as it was.
     */
    method ScrapeCurrentEvents(containers: seq<seq<Item>>) returns (ok: bool)
      modifies this
      ensures ok <==> containers != [] && Completes(containers[|containers| - 1])
      ensures ok ==> eventsList == Kept(Outcomes(containers[|containers| - 1]))
      ensures !ok ==> eventsList == old(eventsList)
      ensures eventPageUrl == old(eventPageUrl)
    {
      if containers == [] {
        return false;
      }
      var items := containers[|containers| - 1];
      ghost var outcomes := Outcomes(items);
      var events := [];
      var i := 0;
      while i < |items|
        invariant 0 <= i <= |items|
        invariant events == Kept(outcomes[..i])
        invariant forall j :: 0 <= j < i ==> items[j].href.Some?
        invariant eventsList == old(eventsList) && eventPageUrl == old(eventPageUrl)
      {
        if items[i].href.None? {
          // `_get_event_details` raises at its first lookup of the link, and so does the
          // handler when it looks the link up again to report the failure.
          return false;
        }
        var e := GetEventDetails(items[i]);
        KeepOutcome(items, i, e);
        if e.Some? {
          events := events + [e.value];
        }
        i := i + 1;
      }
      assert outcomes[..i] == outcomes;
      eventsList := events;
      ok := true;
    }

    /** `get_events`. */
    method GetEvents() returns (r: seq<Event>)
      ensures r == eventsList
    {
      r := eventsList;
    }
  }

  /** One pass of the batch loop: item `i`'s event, if it has one, is kept after the others. */
  lemma KeepOutcome(items: seq<Item>, i: nat, e: Option<Event>)
    requires i < |items| && e == ItemEvent(items[i])
    ensures Kept(Outcomes(items)[..i + 1]) ==
      Kept(Outcomes(items)[..i]) + (match e case None => [] case Some(x) => [x])
  {
    KeptExtend(Outcomes(items), i);
    OutcomeOf(items, i);
  }

  /** Taking one more outcome keeps its event when it has one. */
  lemma KeptExtend(outcomes: seq<Option<Event>>, i: nat)
    requires i < |outcomes|
    ensures Kept(outcomes[..i + 1]) ==
      Kept(outcomes[..i]) + (match outcomes[i] case None => [] case Some(e) => [e])
  {
    assert outcomes[..i + 1][..i] == outcomes[..i];
  }

  /**
   * Items are processed independently: what two runs of items keep is what each keeps, one
   * after the other, so a failing item never affects later ones and the listing order is
   * kept.
   */
  lemma {:induction false} KeptAppend(a: seq<Option<Event>>, b: seq<Option<Event>>)
    ensures Kept(a + b) == Kept(a) + Kept(b)
    decreases |b|
  {
    if b == [] {
      assert a + b == a;
    } else {
      var n := |b| - 1;
      assert (a + b)[..|a + b| - 1] == a + b[..n];
      KeptAppend(a, b[..n]);
    }
  }

  /** An event is kept exactly when some item yields it. */
  lemma {:induction false} KeptMembers(outcomes: seq<Option<Event>>, e: Event)
    ensures e in Kept(outcomes) <==> Some(e) in outcomes
  {
    if outcomes != [] {
      var n := |outcomes| - 1;
      KeptMembers(outcomes[..n], e);
      assert outcomes == outcomes[..n] + [outcomes[n]];
    }
  }

  /** When every item succeeds, every event is kept, item by item. */
  lemma {:induction false} AllSucceed(outcomes: seq<Option<Event>>)
    requires forall i :: 0 <= i < |outcomes| ==> outcomes[i].Some?
    ensures |Kept(outcomes)| == |outcomes|
    ensures forall i :: 0 <= i < |outcomes| ==> Kept(outcomes)[i] == outcomes[i].value
  {
    if outcomes != [] {
      var n := |outcomes| - 1;
      assert forall i :: 0 <= i < n ==> outcomes[..n][i] == outcomes[i];
      AllSucceed(outcomes[..n]);
    }
  }

  /** When every item fails, nothing is kept. */
  lemma {:induction false} AllFail(outcomes: seq<Option<Event>>)
    requires forall i :: 0 <= i < |outcomes| ==> outcomes[i].None?
    ensures Kept(outcomes) == []
  {
    if outcomes != [] {
      var n := |outcomes| - 1;
      assert forall i :: 0 <= i < n ==> outcomes[..n][i] == outcomes[i];
      AllFail(outcomes[..n]);
    }
  }

  /** Three items, the middle one failing: the first and the third events, in that order. */
  lemma {:induction false} MiddleFailureSkipped(x: Event, z: Event)
    ensures Kept([Some(x), None, Some(z)]) == [x, z]
  {
    var outcomes: seq<Option<Event>> := [Some(x), None, Some(z)];
    KeptExtend(outcomes, 0);
    KeptExtend(outcomes, 1);
    KeptExtend(outcomes, 2);
    assert outcomes[..0] == [] && outcomes[..3] == outcomes;
  }
}

=== FILE: text.dfy ===
/**
 * The string operations the scraper borrows from Python: `str.strip`, `str.replace(' ', '')`,
 * `str.split(sep)`, `str.split()`, `str.lower` on ASCII letters, and the digit runs that the
 * regular expressions behind `datetime.strptime` consume.
 */
module Text {

  /** Python's `str.isspace`, which is also what `\s` matches in a `str` regular expression. */
  predicate IsSpace(c: char) {
    || c == ' '
    || ('\t' <= c <= '\r')
    || ('\U{1C}' <= c <= '\U{1F}')
    || c == '\U{85}' || c == '\U{A0}' || c == '\U{1680}'
    || ('\U{2000}' <= c <= '\U{200A}')
    || c == '\U{2028}' || c == '\U{2029}' || c == '\U{202F}' || c == '\U{205F}' || c == '\U{3000}'
  }

  /** An ASCII decimal digit; the other Unicode decimal digits that `\d` matches are not. */
  predicate IsDigit(c: char) {
    '0' <= c <= '9'
  }

  predicate AllDigits(s: string) {
    forall i :: 0 <= i < |s| ==> IsDigit(s[i])
  }

  // ---------------------------------------------------------------------------------------
  // Stripping whitespace

  /** How many whitespace characters `s` starts with. */
  function LeadingSpaces(s: string): (n: nat)
    ensures n <= |s|
    ensures n < |s| ==> !IsSpace(s[n])
  {
    if s != [] && IsSpace(s[0]) then 1 + LeadingSpaces(s[1..]) else 0
  }

  /** Every character before the count is whitespace. */
  lemma {:induction false} LeadingSpacesAreSpaces(s: string)
    ensures forall k :: 0 <= k < LeadingSpaces(s) ==> IsSpace(s[k])
  {
    if s != [] && IsSpace(s[0]) {
      LeadingSpacesAreSpaces(s[1..]);
      forall k | 1 <= k < LeadingSpaces(s) ensures IsSpace(s[k]) {
        assert s[k] == s[1..][k - 1];
      }
    }
  }

  /** `s.lstrip()`: drops the leading whitespace. */
  function StripLeading(s: string): (r: string)
    ensures |r| <= |s|
    ensures r != [] ==> !IsSpace(r[0])
  {
    if s != [] && IsSpace(s[0]) then StripLeading(s[1..]) else s
  }

  /** What `StripLeading` keeps is what follows the leading whitespace. */
  lemma {:induction false} StripLeadingDrops(s: string)
    ensures StripLeading(s) == s[LeadingSpaces(s)..]
  {
    if s != [] && IsSpace(s[0]) {
      StripLeadingDrops(s[1..]);
      assert s[1..][LeadingSpaces(s[1..])..] == s[LeadingSpaces(s)..];
    }
  }

  /** How many whitespace characters `s` ends with. */
  function TrailingSpaces(s: string): (n: nat)
    ensures n <= |s|
    ensures n < |s| ==> !IsSpace(s[|s| - 1 - n])
  {
    if s != [] && IsSpace(s[|s| - 1]) then 1 + TrailingSpaces(s[..|s| - 1]) else 0
  }

  /** Every character after the last non-whitespace one is whitespace. */
  lemma {:induction false} TrailingSpacesAreSpaces(s: string)
    ensures forall k :: |s| - TrailingSpaces(s) <= k < |s| ==> IsSpace(s[k])
  {
    if s != [] && IsSpace(s[|s| - 1]) {
      TrailingSpacesAreSpaces(s[..|s| - 1]);
      forall k | |s| - TrailingSpaces(s) <= k < |s| - 1 ensures IsSpace(s[k]) {
        assert s[k] == s[..|s| - 1][k];
      }
    }
  }

  /** `s.rstrip()`: drops the trailing whitespace. */
  function StripTrailing(s: string): string {
    s[..|s| - TrailingSpaces(s)]
  }

  /** `s.strip()`: the result is a slice of `s` with whitespace only around it and none at its ends. */
  function Strip(s: string): (r: string)
    ensures r != [] ==> !IsSpace(r[0]) && !IsSpace(r[|r| - 1])
    ensures LeadingSpaces(s) + |r| <= |s| && r == s[LeadingSpaces(s)..LeadingSpaces(s) + |r|]
    ensures forall k :: 0 <= k < LeadingSpaces(s) ==> IsSpace(s[k])
    ensures forall k :: LeadingSpaces(s) + |r| <= k < |s| ==> IsSpace(s[k])
  {
    var i := LeadingSpaces(s);
    var r := StripTrailing(StripLeading(s));
    StripLeadingDrops(s);
    LeadingSpacesAreSpaces(s);
    SpacesAfterStrip(s, i);
    r
  }

  /** What `Strip` drops at the end of `s` is whitespace, and what it keeps is a slice of `s`. */
  lemma {:induction false} SpacesAfterStrip(s: string, i: nat)
    requires i <= |s|
    ensures var t := s[i..];
      |s| - TrailingSpaces(t) >= i
      && t[..|t| - TrailingSpaces(t)] == s[i..|s| - TrailingSpaces(t)]
      && forall k :: |s| - TrailingSpaces(t) <= k < |s| ==> IsSpace(s[k])
  {
    var t := s[i..];
    TrailingSpacesAreSpaces(t);
    forall k | |s| - TrailingSpaces(t) <= k < |s|
      ensures IsSpace(s[k])
    {
      assert s[k] == t[k - i];
    }
  }

  /** Stripping twice is stripping once. */
  lemma {:induction false} StripIdempotent(s: string)
    ensures Strip(Strip(s)) == Strip(s)
  {
    var r := Strip(s);
    assert StripLeading(r) == r;
    assert StripTrailing(r) == r;
  }

  // ---------------------------------------------------------------------------------------
  // Removing spaces

  /** `s.replace(' ', '')`: only the plain space goes; tabs and other whitespace stay. */
  function RemoveSpaces(s: string): (r: string)
    ensures ' ' !in r
    ensures |r| <= |s|
    ensures ' ' !in s ==> r == s
    ensures forall c :: c != ' ' && c in s ==> c in r
    ensures |r| == |s| - Count(s, ' ')
    ensures forall c :: c != ' ' ==> Count(r, c) == Count(s, c)
  {
    if s == [] then []
    else if s[0] == ' ' then RemoveSpaces(s[1..])
    else [s[0]] + RemoveSpaces(s[1..])
  }

  lemma {:induction false} RemoveSpacesAppend(a: string, b: string)
    ensures RemoveSpaces(a + b) == RemoveSpaces(a) + RemoveSpaces(b)
  {
    if a == [] {
      assert a + b == b;
    } else {
      assert (a + b)[1..] == a[1..] + b;
      RemoveSpacesAppend(a[1..], b);
    }
  }

  // ---------------------------------------------------------------------------------------
  // Splitting on a separator

  /** How often `c` occurs in `s`. */
  function Count(s: string, c: char): nat {
    if s == [] then 0 else (if s[0] == c then 1 else 0) + Count(s[1..], c)
  }

  /** Python's `s.split(sep)` for a one-character separator: always at least one part. */
  function Split(s: string, sep: char): (parts: seq<string>)
    ensures |parts| >= 1
  {
    if s == [] then [[]]
    else
      var rest := Split(s[1..], sep);
      if s[0] == sep then [[]] + rest
      else [[s[0]] + rest[0]] + rest[1..]
  }

  /** Python's `sep.join(parts)`. */
  function Join(parts: seq<string>, sep: char): string
    requires |parts| >= 1
  {
    if |parts| == 1 then parts[0] else parts[0] + ([sep] + Join(parts[1..], sep))
  }

  /** A join starts with the first part's first character and ends with the last part's last. */
  lemma {:induction false} JoinEnds(parts: seq<string>, sep: char)
    requires |parts| >= 1 && forall i :: 0 <= i < |parts| ==> parts[i] != []
    ensures var j := Join(parts, sep);
      |j| >= 1 && j[0] == parts[0][0] && j[|j| - 1] == parts[|parts| - 1][|parts[|parts| - 1]| - 1]
  {
    if |parts| > 1 {
      JoinEnds(parts[1..], sep);
    }
  }

  /** Joining the parts of a split gives back the text. */
  lemma {:induction false} JoinSplit(s: string, sep: char)
    ensures Join(Split(s, sep), sep) == s
  {
    if s != [] {
      var rest := Split(s[1..], sep);
      JoinSplit(s[1..], sep);
      if s[0] == sep {
        JoinAfterEmpty(rest, sep);
      } else {
        JoinOntoFirst(s[0], rest, sep);
      }
      assert s == [s[0]] + s[1..];
    }
  }

  /** An empty first part puts a separator in front of the rest's join. */
  lemma {:induction false} JoinAfterEmpty(parts: seq<string>, sep: char)
    requires |parts| >= 1
    ensures Join([[]] + parts, sep) == [sep] + Join(parts, sep)
  {
    assert ([[]] + parts)[1..] == parts;
  }

  /** A character put onto the first part comes first in the join. */
  lemma {:induction false} JoinOntoFirst(c: char, parts: seq<string>, sep: char)
    requires |parts| >= 1
    ensures Join([[c] + parts[0]] + parts[1..], sep) == [c] + Join(parts, sep)
  {
    var q := [[c] + parts[0]] + parts[1..];
    assert q[1..] == parts[1..];
  }

  /** A split has one part more than the text has separators. */
  lemma {:induction false} SplitCount(s: string, sep: char)
    ensures |Split(s, sep)| == Count(s, sep) + 1
  {
    if s != [] {
      SplitCount(s[1..], sep);
    }
  }

  /** No part of a split contains the separator. */
  lemma {:induction false} SplitPartsFree(s: string, sep: char)
    ensures forall i :: 0 <= i < |Split(s, sep)| ==> sep !in Split(s, sep)[i]
  {
    if s != [] {
      SplitPartsFree(s[1..], sep);
      var rest := Split(s[1..], sep);
      if s[0] != sep {
        assert sep !in rest[0];
        assert sep !in [s[0]] + rest[0];
      }
    }
  }

  /** Splitting a join of separator-free parts gives back the parts. */
  lemma {:induction false} SplitJoin(parts: seq<string>, sep: char)
    requires |parts| >= 1
    requires forall i :: 0 <= i < |parts| ==> sep !in parts[i]
    ensures Split(Join(parts, sep), sep) == parts
  {
    if |parts| == 1 {
      SplitFree(parts[0], sep);
    } else {
      SplitJoin(parts[1..], sep);
      SplitAfterFree(parts[0], Join(parts[1..], sep), sep);
      assert Join(parts, sep) == parts[0] + [sep] + Join(parts[1..], sep);
      assert [parts[0]] + parts[1..] == parts;
    }
  }

  /** A text without the separator splits into itself. */
  lemma {:induction false} SplitFree(s: string, sep: char)
    requires sep !in s
    ensures Split(s, sep) == [s]
  {
    if s != [] {
      SplitFree(s[1..], sep);
      assert [s[0]] + s[1..] == s;
    }
  }

  /** A separator-free prefix becomes the first part of the split. */
  lemma {:induction false} SplitAfterFree(a: string, b: string, sep: char)
    requires sep !in a
    ensures Split(a + [sep] + b, sep) == [a] + Split(b, sep)
  {
    if a == [] {
      assert a + [sep] + b == [sep] + b;
      assert ([sep] + b)[1..] == b;
    } else {
      assert (a + [sep] + b)[1..] == a[1..] + [sep] + b;
      SplitAfterFree(a[1..], b, sep);
      assert [a[0]] + a[1..] == a;
    }
  }

  // ---------------------------------------------------------------------------------------
  // Case

  /** `c.lower()` on ASCII letters. */
  function Lower(c: char): char {
    if 'A' <= c <= 'Z' then (c as int - 'A' as int + 'a' as int) as char else c
  }

  function Upper(c: char): char {
    if 'a' <= c <= 'z' then (c as int - 'a' as int + 'A' as int) as char else c
  }

  /** A name with an upper-case first letter, as the site prints month and weekday names. */
  function Capitalise(s: string): (r: string)
    ensures |r| == |s|
  {
    if s == [] then [] else [Upper(s[0])] + s[1..]
  }

  predicate IsLowerWord(s: string) {
    forall k :: 0 <= k < |s| ==> 'a' <= s[k] <= 'z'
  }

  /** `s.lower() == lit` for a lower-case ASCII literal `lit`. */
  predicate EqualsIgnoreCase(s: string, lit: string) {
    |s| == |lit| && (s == [] || (Lower(s[0]) == lit[0] && EqualsIgnoreCase(s[1..], lit[1..])))
  }

  /** A lower-case word matches itself and its capitalised form. */
  lemma {:induction false} CapitaliseMatches(s: string)
    requires IsLowerWord(s)
    ensures EqualsIgnoreCase(s, s)
    ensures EqualsIgnoreCase(Capitalise(s), s)
  {
    if s != [] {
      CapitaliseMatches(s[1..]);
      assert Capitalise(s)[1..] == s[1..];
    }
  }

  /** A text matches at most one lower-case literal. */
  lemma {:induction false} EqualsIgnoreCaseUnique(w: string, a: string, b: string)
    requires EqualsIgnoreCase(w, a) && EqualsIgnoreCase(w, b)
    ensures a == b
  {
    if w != [] {
      EqualsIgnoreCaseUnique(w[1..], a[1..], b[1..]);
      assert a == [a[0]] + a[1..];
      assert b == [b[0]] + b[1..];
    }
  }

  // ---------------------------------------------------------------------------------------
  // Digits

  function DigitValue(c: char): nat
    requires IsDigit(c)
  {
    c as int - '0' as int
  }

  function Digit(n: nat): (c: char)
    requires n < 10
    ensures IsDigit(c) && DigitValue(c) == n
  {
    ('0' as int + n) as char
  }

  /** The value of a string of decimal digits, as Python's `int` reads it. */
  function NatOf(s: string): nat
    requires AllDigits(s)
  {
    if s == [] then 0 else NatOf(s[..|s| - 1]) * 10 + DigitValue(s[|s| - 1])
  }

  function Pow10(w: nat): (p: nat)
    ensures p >= 1
  {
    if w == 0 then 1 else 10 * Pow10(w - 1)
  }

  /** `n` in decimal, zero-padded to `w` digits (as `%0wd` prints it when it fits). */
  function Pad(n: nat, w: nat): (r: string)
    requires n < Pow10(w)
    ensures |r| == w && AllDigits(r) && NatOf(r) == n
  {
    if w == 0 then []
    else
      var r := Pad(n / 10, w - 1) + [Digit(n % 10)];
      assert r[..w - 1] == Pad(n / 10, w - 1);
      r
  }

  /** A string of digits has a value below ten to its length. */
  lemma {:induction false} NatOfBound(s: string)
    requires AllDigits(s)
    ensures NatOf(s) < Pow10(|s|)
  {
    if s != [] {
      NatOfBound(s[..|s| - 1]);
    }
  }

  // ---------------------------------------------------------------------------------------
  // Words

  /** The number of leading non-whitespace characters of `s`. */
  function WordLength(s: string): (n: nat)
    ensures n <= |s|
    ensures forall k :: 0 <= k < n ==> !IsSpace(s[k])
    ensures n < |s| ==> IsSpace(s[n])
  {
    if s != [] && !IsSpace(s[0]) then 1 + WordLength(s[1..]) else 0
  }

  predicate IsWord(w: string) {
    w != [] && forall k :: 0 <= k < |w| ==> !IsSpace(w[k])
  }

  /** Python's `s.split()`: the maximal runs of non-whitespace, in order. */
  function Words(s: string): seq<string>
    decreases |s|
  {
    var t := StripLeading(s);
    if t == [] then []
    else
      var n := WordLength(t);
      [t[..n]] + Words(t[n..])
  }

  /** A word followed by a space and more text is the first of the words. */
  lemma {:induction false} WordsCons(w: string, rest: string)
    requires IsWord(w)
    ensures Words(w + (" " + rest)) == [w] + Words(rest)
  {
    var s := w + (" " + rest);
    assert s[0] == w[0];
    assert StripLeading(s) == s;
    WordLengthOf(w, " " + rest);
    assert s[..|w|] == w;
    assert s[|w|..] == " " + rest;
    WordsSkipSpace(rest);
  }

  lemma {:induction false} WordsSkipSpace(rest: string)
    ensures Words(" " + rest) == Words(rest)
  {
    assert (" " + rest)[1..] == rest;
    assert StripLeading(" " + rest) == StripLeading(rest);
  }

  /** `" ".join(ws).split() == ws` for words without whitespace. */
  lemma {:induction false} WordsOfJoin(ws: seq<string>)
    requires |ws| >= 1 && forall i :: 0 <= i < |ws| ==> IsWord(ws[i])
    ensures Words(Join(ws, ' ')) == ws
  {
    if |ws| == 1 {
      WordsSingle(ws[0]);
    } else {
      WordsOfJoin(ws[1..]);
      WordsCons(ws[0], Join(ws[1..], ' '));
      assert ws == [ws[0]] + ws[1..];
    }
  }

  /** A single word is its own only word. */
  lemma {:induction false} WordsSingle(w: string)
    requires IsWord(w)
    ensures Words(w) == [w]
  {
    assert StripLeading(w) == w;
    WordLengthOf(w, []);
    assert w + [] == w;
  }

  lemma {:induction false} WordLengthOf(w: string, rest: string)
    requires forall k :: 0 <= k < |w| ==> !IsSpace(w[k])
    requires rest == [] || IsSpace(rest[0])
    ensures WordLength(w + rest) == |w|
  {
    if w != [] {
      assert (w + rest)[1..] == w[1..] + rest;
      WordLengthOf(w[1..], rest);
    } else {
      assert w + rest == rest;
    }
  }
}

=== FILE: wrappers.dfy ===
/** The optional value used for every operation of the scraper that can raise. */
module Wrappers {

  /** `None` stands for a Python exception (or a missing value), `Some` for a result. */
  datatype Option<+T> = None | Some(value: T)
}
